=== FILE: README.md ===
# A model of the ClickHouse store of bro-pdns

bro-pdns builds passive-DNS tables from Bro/Zeek DNS logs. This project
models its ClickHouse back end, `CHStore`:

- how `Update` loads one aggregated batch: drop the staging tables, create
  them again, load the batch, and merge each staging table into its
  `AggregatingMergeTree` table with a `GROUP BY`;
- how the five lookups read those tables back;
- the small operations `IsLogIndexed`, `Clear`, `Begin`, `Commit` and
  `DeleteOld`.

The database is an immutable value (`Schema.Db`):

- the two permanent aggregate tables, `tuples` (keyed by query, type and
  answer) and `individual` (keyed by which and value), each a sequence of
  appended aggregate-state fragments;
- the `filenames` ledger;
- the two staging tables, each of which may be absent.

A merged read (`minMerge`, `maxMerge`, `sumMerge ... GROUP BY key`) folds
every fragment of a key (`Aggregate.KeyStats`). Counts are `UInt64`, so sums
wrap modulo 2^64. Query names, and individual values seen as queries, are
stored reversed.

Every SQL statement is a transition on the database (`Statements.Exec`).
Whether the server or the transport fails a statement is not visible in the
code, so it is a parameter: the set `faults` of statements that fail. The
model also has the server reject a statement in two cases that follow from
the statements themselves:

- dropping, loading or merging a staging table that does not exist;
- creating a staging table that already exists, because its DDL has no
  `IF NOT EXISTS`.

The model assumes that a statement reported as failed changed nothing;
"## Left out" says where the code does not guarantee this. `Update` and
`Clear` run their statements in order and stop at the first that fails
(`Statements.Run`). Nothing is rolled back.

Modules follow the source:

- `Base`: column widths.
- `Strings`: `Reverse`, prefix and suffix, string order.
- `Sorting`: the `ORDER BY`.
- `Aggregate`: aggregate states and the merge `GROUP BY`.
- `Schema`: tables and keys.
- `Statements`: SQL statements as transitions.
- `Ingest`: `Update`.
- `Lookup`: the five reads.
- `Admin`: the small operations.
- `Properties`: properties that relate several calls.

The like-lookups match characters, not DNS labels. A search for the
subdomains of `example.com` would want names ending in `.example.com`
and not `notexample.com`. The code compares the reversed input as a plain
prefix of the reversed stored query, and the input as a plain prefix of the
answer. So `notexample.com` is matched
(`Properties.LikeTuplesIgnoresLabelBoundary`). An answer such as
`mail.example.com` is not matched, because the input is not a prefix of it.
The model follows the code.

## Model

| member | source | states |
|---|---|---|
| Aggregate.KeyStats | store_clickhouse.go:253 | A key has a merged state exactly when some fragment of the table carries that key. |
| Aggregate.KeyStatsSummarizes | store_clickhouse.go:253 | The merged state of a key is the least first-seen and the greatest last-seen of its fragments, and their total count modulo 2^64. |
| Aggregate.KeyStatsAppend | store_clickhouse.go:198 | Appending fragments to a table joins their merged state onto the old one, key by key. |
| Aggregate.KeyStatsPermutation | store_clickhouse.go:19-30 | The merged state of a key depends only on which fragments the table holds, not on their order. |
| Aggregate.CombineCommutative | store_clickhouse.go:27-29 | Combining two min/max/sum states does not depend on their order. |
| Aggregate.CombineAssociative | store_clickhouse.go:27-29 | Combining min/max/sum states does not depend on grouping. |
| Aggregate.JoinCommutative | store_clickhouse.go:27-29 | Commutativity carries over to states that may be absent. |
| Aggregate.JoinAssociative | store_clickhouse.go:27-29 | Associativity carries over to states that may be absent. |
| Aggregate.Group | store_clickhouse.go:198 | The merge's `GROUP BY` makes one fragment per distinct key, has each key's merged state, and carries the ttl of that key's last staged row (anyLast). |
| Aggregate.AbsorbFacts | store_clickhouse.go:198 | Adding one staged row to a partial grouping keeps keys distinct and joins the row's state onto its key. |
| Aggregate.CountTotalAbsent | store_clickhouse.go:253 | A key with no fragments has total count 0. |
| Aggregate.Combine | store_clickhouse.go:27-29 | Merging two states keeps the earlier first-seen and the later last-seen, each taken from one of the two, and adds the counts with wrap-around at 2^64. |
| Schema.FlipTupleKeyInvolution | store_clickhouse.go:245-247 | Reversing a stored query name back gives the name as written, and reversing it again gives the stored form. |
| Schema.FlipIndividualKeyInvolution | store_clickhouse.go:266-269 | The same holds for individual values, where only values seen as queries are reversed. |
| Schema.TupleKeyLessIsStrictTotal | store_clickhouse.go:253 | The order used for `ORDER BY query, answer` is a strict total order on tuple keys. |
| Schema.IndividualKeyLessIsStrictTotal | store_clickhouse.go:268 | The order used for `ORDER BY value` is a strict total order on individual keys. |
| Schema.TupleKeyLessOrdersQueryAnswer | store_clickhouse.go:253 | The strict key order separates distinct keys and implies the SQL order by query, then answer. |
| Schema.IndividualKeyLessOrdersValue | store_clickhouse.go:268 | The strict key order separates distinct keys and implies the SQL order by value. |
| Schema.FlipTupleKey | store_clickhouse.go:247 | `reverseQuery` turns the stored query back, so reversing the shown query gives the stored one; type and answer are kept. |
| Schema.FlipIndividualKey | store_clickhouse.go:269 | `reverseValue` turns back only values seen as queries: reversing the shown value gives the stored one, and answers are shown as stored. |
| Strings.ReverseInvolution | store_clickhouse.go:245 | Reversing a name twice gives the name back. |
| Strings.ReverseInjective | store_clickhouse.go:252 | Two names are equal exactly when their reversals are. |
| Strings.PrefixOfReversedIsSuffix | store_clickhouse.go:260-261 | A reversed input is a prefix of a reversed name exactly when the input is a suffix of the name. |
| Strings.Reverse | store_clickhouse.go:245-274 | The repository's `Reverse`, applied to every lookup input: same length, and character i of the result is character n-1-i of the input. |
| Sorting.SortSameElements | store_clickhouse.go:253 | Sorting keeps exactly the same keys. |
| Sorting.SortSorted | store_clickhouse.go:253 | Sorting distinct keys gives a strictly increasing sequence. |
| Sorting.StrictlySortedUnique | store_clickhouse.go:253 | Two strictly increasing sequences with the same elements are equal, so the `ORDER BY` result is determined. |
| Lookup.Where | store_clickhouse.go:253 | The `WHERE` keeps each fragment whose key satisfies the condition, as often as the table holds it, and nothing else. |
| Lookup.MergedLookup | store_clickhouse.go:253 | A merged read returns one row per matching key that occurs in the table, with that key's merged state, in strictly increasing key order. |
| Lookup.MergedLookupDependsOnlyOnKeyStats | store_clickhouse.go:253 | Two tables that agree on every key's merged state give identical merged reads. |
| Lookup.FindQueryTuples | store_clickhouse.go:243-249 | Returns exactly the stored fragments whose query is the reversed input, each as often as it is stored, with the query shown in natural order. |
| Lookup.FindTuples | store_clickhouse.go:250-257 | Rows are the keys whose query or answer equals the input, complete and with their merged states, each key once, ordered by query and then answer. |
| Lookup.LikeTuples | store_clickhouse.go:258-264 | Rows are the keys whose query ends with the input or whose answer starts with it, complete and with their merged states, each key once and ordered. |
| Lookup.FindIndividual | store_clickhouse.go:265-271 | Returns at most two rows, each key once: the input seen as an answer and seen as a query, each with its merged state, ordered by value. |
| Lookup.LikeIndividual | store_clickhouse.go:273-279 | Rows are the answers that start with the input and the queries that end with it, complete, with merged states, each once and ordered by value. |
| Lookup.TupleLookupsDependOnlyOnKeyStats | store_clickhouse.go:250-264 | Two tuple tables with the same merged states answer `FindTuples` and `LikeTuples` alike. |
| Lookup.IndividualLookupsDependOnlyOnKeyStats | store_clickhouse.go:265-279 | Two individual tables with the same merged states answer `FindIndividual` and `LikeIndividual` alike. |
| Statements.Effect | store_clickhouse.go:177-208 | A statement the server accepts writes only its own table. |
| Statements.Exec | store_clickhouse.go:114-118 | A statement fails exactly when it faults or the server rejects it in the state reached; when it succeeds it writes only its own table. |
| Statements.Attempt | store_clickhouse.go:177-178 | A statement whose error is ignored writes only its own table, and changes nothing when it fails. |
| Statements.Run | store_clickhouse.go:129-138 | A run that fails names a statement that fails in the state reached, and tables that no statement targets keep their contents. |
| Statements.RunStopsAtFailure | store_clickhouse.go:180-211 | A run that fails at step i leaves exactly the state of the steps before i, and those steps all succeed. |
| Statements.RunIgnoresLedger | store_clickhouse.go:180-211 | Statements other than `DELETE FROM filenames` neither read nor write the ledger. |
| Ingest.DropStaging | store_clickhouse.go:177-178 | The two drops leave the permanent tables and the ledger alone, and a staging table survives only if it existed and its drop failed. |
| Ingest.Update | store_clickhouse.go:173-214 | Succeeds exactly when no step faults and no leftover staging table survives its drop. On success both tables gain the batch's groups, the staging tables hold the batch, and a duration is reported. On failure the error names the first step bound to fail (`Ingest.FirstFailure`) with that step's wrap message. There is no duration, the ledger is unchanged, and the tables are the ones the failing step allows. |
| Ingest.FirstFailure | store_clickhouse.go:177-211 | The least pipeline step that faults, or whose `CREATE` meets a staging table that survived its drop; none when no step is bound to fail. |
| Ingest.UpdateStopsAtFirstFault | store_clickhouse.go:180-211 | `Update` reports the first pipeline statement that faults, with that statement's message. |
| Ingest.UpdateBlockedByLeftover | store_clickhouse.go:177-183 | A leftover `tuples_temp` whose drop fails makes `Update` fail at its `CREATE` before any data moves. |
| Ingest.RunIsThenAll | store_clickhouse.go:180-211 | The generic "run in order, stop at the first error" loop equals the statement-by-statement early returns. |
| Ingest.StepsSucceed | store_clickhouse.go:180-213 | The six statements all succeed exactly when none faults and both staging tables are absent. |
| Ingest.StepsLoad | store_clickhouse.go:193-211 | When the six statements succeed, the batch is staged and its groups are appended to both tables. |
| Ingest.StepsFail | store_clickhouse.go:180-211 | On failure at a given step, the permanent tables hold exactly the merges that came before it. |
| Admin.ScanLedger | store_clickhouse.go:218 | Without a driver error, the ledger query finds a row exactly when the filename is recorded. |
| Admin.IndexedFromScan | store_clickhouse.go:219-226 | "Indexed" exactly when a row was read; an error exactly when the driver failed with something other than no rows; that error is passed on. |
| Admin.IsLogIndexed | store_clickhouse.go:216-227 | Without a driver error, answers whether the filename is in the ledger, with no error. With a driver error, answers false with that error. |
| Admin.Clear | store_clickhouse.go:129-138 | Succeeds exactly when none of the three deletes faults, and then empties the ledger and both tables. On a failure, the deletes before the failing one stay done and the rest are not run. |
| Admin.Begin | store_clickhouse.go:140-142 | Always fails and changes nothing. |
| Admin.Commit | store_clickhouse.go:143-146 | Always succeeds and changes nothing. |
| Admin.DeleteOld | store_clickhouse.go:148-151 | Deletes nothing, reports 0 deleted, and returns an error. |
| Properties.FlattenPermutation | store_clickhouse.go:193-208 | Loading the same batches in another order stages the same rows, as a multiset. |
| Properties.UpdateWithoutFaults | store_clickhouse.go:177-213 | Without faults, `Update` always succeeds, even over staging tables left by an earlier call. |
| Properties.IngestAllKeyStats | store_clickhouse.go:173-214 | After a series of successful (fault-free) updates, each key's merged state is its old state joined with that of every staged row of every batch, and the ledger is unchanged. |
| Properties.FindTuplesReportsTotals | store_clickhouse.go:250-257 | After a series of successful (fault-free) updates, each `FindTuples` row has the min first-seen, max last-seen and total count over the old fragments and all batches, and every matching key is reported. |
| Properties.FindIndividualReportsTotals | store_clickhouse.go:265-271 | The same for `FindIndividual`, after a series of successful (fault-free) updates. |
| Properties.IngestOrderIndependent | store_clickhouse.go:198-208 | For successful (fault-free) updates, any reordering of the batches gives identical results from the four merged lookups. |
| Properties.UpdateIgnoresLedger | store_clickhouse.go:173-214 | `Update` does not consult the ledger: for any ledger it fails or succeeds alike and writes the same tables. |
| Properties.UpdateTwiceMergesTwice | store_clickhouse.go:198 | Loading the same batch twice appends its tuple groups twice and joins each key's batch state twice. |
| Properties.UpdateTwiceDoublesCount | store_clickhouse.go:198 | For a key not in the table before, loading a batch twice doubles its count modulo 2^64 and keeps its first and last seen. |
| Properties.RepeatedTupleCountsTwice | store_clickhouse.go:198-257 | A batch staging the same tuple twice, each seen once at time t, gives one `FindTuples` row with count 2, first and last at t. |
| Properties.ClearEmptiesLookups | store_clickhouse.go:129-138 | After a successful `Clear`, all five lookups return nothing and no log counts as indexed. |
| Properties.LikeTuplesIgnoresLabelBoundary | store_clickhouse.go:258-264 | `LikeTuples` with input `example.com` returns a stored tuple whose query is `notexample.com`. |

## Left out

- Network and HTTP. `NewCHStore`, the `Exec` transport, the mechanics of `SendJSON` (URL, client timeout, status code) and `Init` are I/O. Their success or failure is the `faults` parameter.
- `SendJSON` defers `resp.Body.Close()` before checking the `Post` error, so a transport failure would panic on a nil response, not return an error. The model treats every failed load as a returned error.
- `Close`, `SetLogIndexed` and the other ledger columns are not modelled. `Close` calls itself. The ledger is modelled only as the filenames it holds.
- The JSON readers `TupleJSONReader` and `IndividualJSONReader`, and the aggregation that produces a batch, are not part of this model. A `Statements.Batch` is given in stored form, with query names already reversed.
- `reverseQuery`, `reverseValue` and the repository's `Reverse` are not part of this model. `Reverse` is modelled as character reversal. `reverseValue` is assumed to turn back only the values with `which = 'Q'`, because only those are stored reversed.
- Timing: `time.Now` and `time.Since` become the `elapsed` parameter of `Ingest.Update`.
- Errors: only the `errors.Wrap` context of a failed `Update` step is modelled, not the text of the underlying cause. Driver errors of the lookup `SELECT`s are not modelled. The lookups always return rows.
- Lookup.LikeTuples: the input is placed into the `LIKE` pattern unchanged (`query+"%"`, `rquery+"%"`), and ClickHouse `LIKE` gives `%`, `_` and `\` a meaning there. The model treats all three as literal characters, so its `LIKE x%` is a plain prefix test. An input holding them matches differently in the source. For example, `a\` makes the pattern `a\%`, whose `%` is escaped, so it matches only the string `a%`, where the model returns every name starting with `a\`. Zeek writes non-printable bytes as `\xNN`, so stored names with backslashes are plausible.
- Lookup.LikeIndividual: the same holds for its patterns `value+"%"` and `rvalue+"%"`: `%`, `_` and `\` in the input are matched literally, not as a wildcard or an escape.
- Background part merges of `AggregatingMergeTree` are not modelled; appended fragments are never combined. The merged reads depend only on each key's merged state, which such merges keep.
- Lookup.FindQueryTuples: `SELECT *` on the aggregate table returns unmerged fragments. The model returns them in table order, so its result depends on load order and is not covered by `Properties.IngestOrderIndependent`. The ttl's anyLast is likewise order dependent and is not stated to commute.
- Lookup.MergedLookup: SQL leaves ties of `ORDER BY query, answer` and `ORDER BY value` open. The model breaks them by type and by `Q` before `A`, and the lookups' contracts promise only the SQL order.
- Ingest.Update: on failure, the contract fixes the permanent tables, the ledger and the error, but the staging tables only for failures at the tuples load and merge.
- Statements.Exec: a statement reported as failed is assumed to have changed nothing. The code does not guarantee this. The `Exec` transport times out after 5 s and `SendJSON`'s client after 60 s, and either can report an error for an `INSERT ... SELECT` or a load that the server then completes. `SendJSON` also returns `ReadAll`'s error in place of `Post`'s. After such a failure the table may already hold the batch, and a retry would merge it twice. `Ingest.Update`'s failure clauses rest on this assumption.
- Admin.Clear: the model assumes the server accepts `DELETE FROM <table>` with no `WHERE`. The ClickHouse `DELETE` grammar requires a `WHERE` clause, and the engine version the legacy `MergeTree(day, (filename), 8192)` syntax points to had no `DELETE` at all. Against such a server every `Clear` fails at its first statement, and neither its success case nor `Properties.ClearEmptiesLookups` is reachable.
- Admin.Commit: its `log.Printf` is output and is not modelled.
- Admin.DeleteOld: the `days` argument is ignored, as in the source.

=== FILE: admin.dfy ===
/**
 The small operations of `CHStore`: the ledger check `IsLogIndexed`, the
 full reset `Clear`, and the three operations the engine does not support
 (`Begin`, `Commit`, `DeleteOld`).
 */
module Admin {
  import opened Base
  import opened Schema
  import opened Statements

  /* ---- IsLogIndexed ---- */

  /**
   What `QueryRow(...).Scan(&fn)` reports: the filename that was read, no
   row at all, or any other driver error.
   */
  datatype ScanOutcome = Scanned(filename: string) | NoRows | ScanFailed(message: string)

  /**
   `SELECT filename FROM filenames WHERE filename = ?` against the ledger.
   Whether the driver fails is not visible in the code; `driverError` says
   whether it does, and with what message.
   */
  function ScanLedger(db: Db, filename: string, driverError: Option<string>): (r: ScanOutcome)
    ensures driverError.None? ==> (r.Scanned? <==> filename in db.filenames)
    ensures r.Scanned? ==> r.filename == filename
  {
    match driverError
    case Some(m) => ScanFailed(m)
    case None => if filename in db.filenames then Scanned(filename) else NoRows
  }

  /**
   The `switch` of `IsLogIndexed`: no rows is "not indexed" without an
   error, any other error is "not indexed" with that error, and a row read
   is "indexed".
   */
  function IndexedFromScan(scan: ScanOutcome): (r: (bool, Option<string>))
    ensures r.0 <==> scan.Scanned?
    ensures r.1.Some? <==> scan.ScanFailed?
    ensures scan.ScanFailed? ==> r.1 == Some(scan.message)
  {
    match scan
    case NoRows => (false, None)
    case ScanFailed(m) => (false, Some(m))
    case Scanned(_) => (true, None)
  }

  function IsLogIndexed(db: Db, filename: string, driverError: Option<string>): (r: (bool, Option<string>))
    ensures driverError.None? ==> r == (filename in db.filenames, None)
    ensures driverError.Some? ==> r == (false, driverError)
  {
    IndexedFromScan(ScanLedger(db, filename, driverError))
  }

  /* ---- Clear ---- */

  const ClearStatements: seq<Stmt> := [DeleteFilenames, DeleteIndividual, DeleteTuples]

  /** The state `Clear` leaves, and the statement whose error it returns, if one failed. */
  datatype ClearOutcome = ClearOutcome(db: Db, err: Option<Stmt>)

  /**
   `Clear`: empties `filenames`, then `individual`, then `tuples`, and
   returns the first error. The deletes before a failed one stay done.
   */
  function Clear(db: Db, faults: set<Stmt>): (out: ClearOutcome)
    ensures out.err.None? <==> DeleteFilenames !in faults && DeleteIndividual !in faults && DeleteTuples !in faults
    ensures out.err.Some? ==> out.err.value in ClearStatements
    ensures out.err.None? ==> out.db == db.(filenames := [], individual := [], tuples := [])
    ensures out.err == Some(DeleteFilenames) ==> DeleteFilenames in faults && out.db == db
    ensures out.err == Some(DeleteIndividual) ==>
              DeleteFilenames !in faults && DeleteIndividual in faults && out.db == db.(filenames := [])
    ensures out.err == Some(DeleteTuples) ==>
              DeleteFilenames !in faults && DeleteIndividual !in faults && DeleteTuples in faults
              && out.db == db.(filenames := [], individual := [])
  {
    var run := Run(db, ClearStatements, Batch([], []), faults);
    ClearRun(db, faults);
    match run.failed
    case None => ClearOutcome(run.db, None)
    case Some(i) => ClearOutcome(run.db, Some(ClearStatements[i]))
  }

  lemma ClearRun(db: Db, faults: set<Stmt>)
    ensures var r := Run(db, ClearStatements, Batch([], []), faults);
      && (r.failed.None? <==> DeleteFilenames !in faults && DeleteIndividual !in faults && DeleteTuples !in faults)
      && (r.failed.None? ==> r.db == db.(filenames := [], individual := [], tuples := []))
      && (r.failed == Some(0) ==> DeleteFilenames in faults && r.db == db)
      && (r.failed == Some(1) ==> DeleteFilenames !in faults && DeleteIndividual in faults && r.db == db.(filenames := []))
      && (r.failed == Some(2) ==> DeleteFilenames !in faults && DeleteIndividual !in faults && DeleteTuples in faults
                                  && r.db == db.(filenames := [], individual := []))
      && (r.failed.Some? ==> r.failed.value < 3)
  {
    var S := ClearStatements;
    assert S[1..] == [DeleteIndividual, DeleteTuples];
    assert S[2..] == [DeleteTuples];
    assert S[3..] == [];
  }

  /* ---- the unsupported operations ---- */

  /** `Begin`: transactions are not supported; the call always fails and changes nothing. */
  function Begin(db: Db): (r: (Db, Option<string>))
    ensures r.0 == db && r.1.Some?
  {
    (db, Some("clickhouse doesn't support transactions"))
  }

  /** `Commit`: logs that transactions are not supported, and reports success. */
  function Commit(db: Db): (r: (Db, Option<string>))
    ensures r.0 == db && r.1.None?
  {
    (db, None)
  }

  datatype DeleteOldOutcome = DeleteOldOutcome(db: Db, deleted: int, err: Option<string>)

  /** `DeleteOld`: retention is not supported; nothing is deleted and an error is returned. */
  function DeleteOld(db: Db, days: int): (r: DeleteOldOutcome)
    ensures r.db == db && r.deleted == 0 && r.err.Some?
  {
    DeleteOldOutcome(db, 0, Some("clickhouse doesn't support delete"))
  }
}

=== FILE: aggregate.dfy ===
/**
 Aggregate state of an `AggregatingMergeTree` table.

 Both permanent tables (`tuples` and `individual`) hold, per key, a
 `minState(first)`, a `maxState(last)` and a `sumState(count)`; `tuples`
 also holds an `anyLastState(ttl)`. A table is a sequence of fragments:
 an `INSERT ... SELECT ... GROUP BY` appends one fragment per key and
 never rewrites an earlier one, and a `minMerge`/`maxMerge`/`sumMerge`
 read folds every fragment that carries the key. The staging tables hold
 rows of the same columns with plain values, which is why one record type
 serves for both.
 */
module Aggregate {
  import opened Base

  /** first-seen, last-seen and number of observations of one key. */
  datatype Stats = Stats(first: DateTime, last: DateTime, count: uint64)

  /**
   One row: a key, a ttl column and the statistics. `X` is `uint16` for
   tuples (the ttl, merged with anyLast) and `()` for individuals, whose
   table has no ttl column.
   */
  datatype Record<K, X> = Record(key: K, ttl: X, stats: Stats)

  function MinTime(a: DateTime, b: DateTime): DateTime
  {
    if a <= b then a else b
  }

  function MaxTime(a: DateTime, b: DateTime): DateTime
  {
    if a <= b then b else a
  }

  /** `UInt64` addition as ClickHouse performs it: modulo 2^64. */
  function AddU64(a: uint64, b: uint64): uint64
  {
    (a + b) % U64
  }

  /**
   The combine step of min/max/sum aggregate states: the earlier first-seen,
   the later last-seen, and the counts added with 64-bit wrap-around.
   */
  function Combine(a: Stats, b: Stats): (r: Stats)
    ensures r.first <= a.first && r.first <= b.first && (r.first == a.first || r.first == b.first)
    ensures a.last <= r.last && b.last <= r.last && (r.last == a.last || r.last == b.last)
    ensures r.count == a.count + b.count || r.count == a.count + b.count - U64
  {
    Stats(MinTime(a.first, b.first), MaxTime(a.last, b.last), AddU64(a.count, b.count))
  }

  /** Combine lifted to "no rows yet" (None), which is its identity. */
  function Join(a: Option<Stats>, b: Option<Stats>): Option<Stats>
  {
    match (a, b)
    case (None, _) => b
    case (_, None) => a
    case (Some(x), Some(y)) => Some(Combine(x, y))
  }

  lemma ModAddLeft(a: int, b: int)
    ensures (a % U64 + b) % U64 == (a + b) % U64
  {
    var q := a / U64;
    assert a == q * U64 + a % U64;
    assert a + b == (a % U64 + b) + q * U64;
  }

  lemma CombineCommutative(a: Stats, b: Stats)
    ensures Combine(a, b) == Combine(b, a)
  {
  }

  lemma CombineAssociative(a: Stats, b: Stats, c: Stats)
    ensures Combine(Combine(a, b), c) == Combine(a, Combine(b, c))
  {
    ModAddLeft(a.count + b.count, c.count);
    ModAddLeft(b.count + c.count, a.count);
  }

  lemma JoinCommutative(a: Option<Stats>, b: Option<Stats>)
    ensures Join(a, b) == Join(b, a)
  {
    if a.Some? && b.Some? {
      CombineCommutative(a.value, b.value);
    }
  }

  lemma JoinAssociative(a: Option<Stats>, b: Option<Stats>, c: Option<Stats>)
    ensures Join(Join(a, b), c) == Join(a, Join(b, c))
  {
    if a.Some? && b.Some? && c.Some? {
      CombineAssociative(a.value, b.value, c.value);
    }
  }

  /** The statistics a single record contributes to key `k`. */
  function Own<K(==), X>(r: Record<K, X>, k: K): Option<Stats>
  {
    if r.key == k then Some(r.stats) else None
  }

  /**
   The merged state of key `k` over a sequence of records: what
   `minMerge(first), maxMerge(last), sumMerge(count) ... GROUP BY key`
   returns for `k`, or None when no record has that key.
   */
  function KeyStats<K(==), X>(s: seq<Record<K, X>>, k: K): (r: Option<Stats>)
    ensures r.Some? <==> exists i :: 0 <= i < |s| && s[i].key == k
  {
    if |s| == 0 then None
    else
      assert forall i :: 1 <= i < |s| ==> s[i] == s[1..][i - 1];
      Join(Own(s[0], k), KeyStats(s[1..], k))
  }

  /** Plain (unbounded) total of the counts of the records with key `k`. */
  function CountTotal<K(==), X>(s: seq<Record<K, X>>, k: K): nat
  {
    if |s| == 0 then 0
    else (if s[0].key == k then s[0].stats.count else 0) + CountTotal(s[1..], k)
  }

  /**
   The reference description of a merged state: its first is the least
   first-seen of the records with key `k`, its last the greatest last-seen,
   and its count their total count modulo 2^64.
   */
  ghost predicate Summarizes<K, X>(st: Stats, s: seq<Record<K, X>>, k: K)
  {
    && st.count == CountTotal(s, k) % U64
    && (forall i :: 0 <= i < |s| && s[i].key == k ==> st.first <= s[i].stats.first && s[i].stats.last <= st.last)
    && (exists i :: 0 <= i < |s| && s[i].key == k && s[i].stats.first == st.first)
    && (exists i :: 0 <= i < |s| && s[i].key == k && s[i].stats.last == st.last)
  }

  /** The fold computes exactly the min / max / sum of the records it folds. */
  lemma {:induction false} KeyStatsSummarizes<K, X>(s: seq<Record<K, X>>, k: K)
    ensures KeyStats(s, k).Some? ==> Summarizes(KeyStats(s, k).value, s, k)
  {
    if |s| > 0 {
      var rest := s[1..];
      KeyStatsSummarizes(rest, k);
      var st := KeyStats(s, k);
      if st.Some? {
        var v := st.value;
        assert forall i :: 1 <= i < |s| ==> s[i] == rest[i - 1];
        if s[0].key == k && KeyStats(rest, k).Some? {
          var w := KeyStats(rest, k).value;
          ModAddLeft(CountTotal(rest, k), s[0].stats.count);
          if v.first == s[0].stats.first {
            assert s[0].key == k;
          } else {
            var i :| 0 <= i < |rest| && rest[i].key == k && rest[i].stats.first == w.first;
            assert s[i + 1].stats.first == v.first;
          }
          if v.last == s[0].stats.last {
            assert s[0].key == k;
          } else {
            var i :| 0 <= i < |rest| && rest[i].key == k && rest[i].stats.last == w.last;
            assert s[i + 1].stats.last == v.last;
          }
        } else if s[0].key == k {
          assert CountTotal(rest, k) == 0 by { CountTotalAbsent(rest, k); }
          assert s[0].key == k && s[0].stats.first == v.first;
        } else {
          var w := KeyStats(rest, k).value;
          var i :| 0 <= i < |rest| && rest[i].key == k && rest[i].stats.first == w.first;
          assert s[i + 1].stats.first == v.first;
          var j :| 0 <= j < |rest| && rest[j].key == k && rest[j].stats.last == w.last;
          assert s[j + 1].stats.last == v.last;
        }
      }
    }
  }

  lemma {:induction false} CountTotalAbsent<K, X>(s: seq<Record<K, X>>, k: K)
    requires KeyStats(s, k).None?
    ensures CountTotal(s, k) == 0
  {
    if |s| > 0 {
      assert s[0].key != k;
      assert KeyStats(s[1..], k).None?;
      CountTotalAbsent(s[1..], k);
    }
  }

  /** Folding a concatenation is joining the folds of its parts. */
  lemma {:induction false} KeyStatsAppend<K, X>(s: seq<Record<K, X>>, t: seq<Record<K, X>>, k: K)
    ensures KeyStats(s + t, k) == Join(KeyStats(s, k), KeyStats(t, k))
  {
    if |s| > 0 {
      assert (s + t)[1..] == s[1..] + t;
      KeyStatsAppend(s[1..], t, k);
      JoinAssociative(Own(s[0], k), KeyStats(s[1..], k), KeyStats(t, k));
    } else {
      assert s + t == t;
    }
  }

  /**
   The central property of aggregate-state tables: the merged state of a key
   does not depend on the order of the fragments, only on which fragments
   there are.
   */
  lemma {:induction false} KeyStatsPermutation<K, X>(s: seq<Record<K, X>>, t: seq<Record<K, X>>, k: K)
    requires multiset(s) == multiset(t)
    ensures KeyStats(s, k) == KeyStats(t, k)
  {
    if |s| == 0 {
      assert |t| == |multiset(t)| == 0;
    } else {
      var x := s[0];
      assert x in multiset(t);
      var j :| 0 <= j < |t| && t[j] == x;
      var u := RemoveAt(t, j, k);
      assert s == [x] + s[1..];
      assert multiset(s[1..]) == multiset(s) - multiset{x};
      KeyStatsPermutation(s[1..], u, k);
    }
  }

  /** Takes the record at index `j` out of `t`, and shows what it contributed. */
  lemma RemoveAt<K, X>(t: seq<Record<K, X>>, j: nat, k: K) returns (u: seq<Record<K, X>>)
    requires j < |t|
    ensures multiset(u) == multiset(t) - multiset{t[j]}
    ensures KeyStats(t, k) == Join(Own(t[j], k), KeyStats(u, k))
  {
    var x, before, after := t[j], t[..j], t[j + 1..];
    u := before + after;
    assert t == before + [x] + after;
    assert multiset(t) == multiset(before) + multiset{x} + multiset(after);
    KeyStatsAppend(before + [x], after, k);
    KeyStatsAppend(before, [x], k);
    KeyStatsAppend(before, after, k);
    assert KeyStats([x], k) == Own(x, k);
    var a, o, c := KeyStats(before, k), Own(x, k), KeyStats(after, k);
    JoinCommutative(a, o);
    JoinAssociative(o, a, c);
  }

  /** Every record has a different key. */
  ghost predicate DistinctKeys<K, X>(g: seq<Record<K, X>>)
  {
    forall i, j :: 0 <= i < j < |g| ==> g[i].key != g[j].key
  }

  /**
   `t` is the ttl of the last record with key `k`: anyLast taken in the
   order the rows were loaded.
   */
  ghost predicate IsLastTtl<K, X>(rows: seq<Record<K, X>>, k: K, t: X)
  {
    exists i :: 0 <= i < |rows| && rows[i].key == k && rows[i].ttl == t
                && forall j :: i < j < |rows| ==> rows[j].key != k
  }

  /**
   Adds one row to a partial grouping: combines it into the group of its
   key (its ttl replacing the group's, as anyLast does), or opens a new
   group at the end.
   */
  function Absorb<K(==), X>(g: seq<Record<K, X>>, r: Record<K, X>): seq<Record<K, X>>
  {
    if |g| == 0 then [r]
    else if g[0].key == r.key then [Record(r.key, r.ttl, Combine(g[0].stats, r.stats))] + g[1..]
    else [g[0]] + Absorb(g[1..], r)
  }

  lemma {:induction false} AbsorbFacts<K(!new), X>(g: seq<Record<K, X>>, r: Record<K, X>)
    requires DistinctKeys(g)
    ensures DistinctKeys(Absorb(g, r))
    ensures |Absorb(g, r)| <= |g| + 1
    ensures forall k :: KeyStats(Absorb(g, r), k) == Join(KeyStats(g, k), Own(r, k))
    ensures forall e :: e in Absorb(g, r) ==> (e in g && e.key != r.key) || (e.key == r.key && e.ttl == r.ttl)
  {
    var a := Absorb(g, r);
    if |g| == 0 {
    } else if g[0].key == r.key {
      var e := Record(r.key, r.ttl, Combine(g[0].stats, r.stats));
      assert a == [e] + g[1..];
      assert a[1..] == g[1..];
      forall k
        ensures KeyStats(a, k) == Join(KeyStats(g, k), Own(r, k))
      {
        var b := KeyStats(g[1..], k);
        if k == r.key {
          JoinCommutative(b, Some(r.stats));
          JoinAssociative(Some(g[0].stats), Some(r.stats), b);
          JoinAssociative(Some(g[0].stats), b, Some(r.stats));
        } else {
          assert Own(r, k) == None;
        }
      }
      forall i, j | 0 <= i < j < |a|
        ensures a[i].key != a[j].key
      {
        assert a[j] == g[j];
        if i > 0 {
          assert a[i] == g[i];
        }
      }
      forall e | e in a && e.key != r.key
        ensures e in g
      {
        var m :| 0 <= m < |a| && a[m] == e;
        assert m > 0 && g[m] == e;
      }
    } else {
      var tail := g[1..];
      assert forall i, j :: 0 <= i < j < |tail| ==> tail[i] == g[i + 1] && tail[j] == g[j + 1];
      AbsorbFacts(tail, r);
      var at := Absorb(tail, r);
      assert a == [g[0]] + at;
      assert a[1..] == at;
      forall k
        ensures KeyStats(a, k) == Join(KeyStats(g, k), Own(r, k))
      {
        JoinAssociative(Own(g[0], k), KeyStats(tail, k), Own(r, k));
      }
      forall j | 0 < j < |a|
        ensures a[0].key != a[j].key
      {
        var e := at[j - 1];
        assert e in at;
        if e in tail {
          var m :| 0 <= m < |tail| && tail[m] == e;
          assert g[m + 1] == e;
        }
      }
    }
  }

  /**
   The `GROUP BY key` of the merge insert: one record per distinct key of
   the staged rows, holding the merged state of that key's rows and the
   ttl of its last row.
   */
  function Group<K(==,!new), X>(rows: seq<Record<K, X>>): (g: seq<Record<K, X>>)
    ensures DistinctKeys(g)
    ensures |g| <= |rows|
    ensures forall k :: KeyStats(g, k) == KeyStats(rows, k)
    ensures forall e :: e in g ==> IsLastTtl(rows, e.key, e.ttl)
  {
    if |rows| == 0 then []
    else
      var init, r := rows[..|rows| - 1], rows[|rows| - 1];
      assert rows == init + [r];
      var g0 := Group(init);
      AbsorbFacts(g0, r);
      GroupStep(init, r, g0);
      Absorb(g0, r)
  }

  lemma GroupStep<K(!new), X>(init: seq<Record<K, X>>, r: Record<K, X>, g0: seq<Record<K, X>>)
    requires forall k :: KeyStats(g0, k) == KeyStats(init, k)
    requires forall e :: e in g0 ==> IsLastTtl(init, e.key, e.ttl)
    requires forall e :: e in Absorb(g0, r) ==> (e in g0 && e.key != r.key) || (e.key == r.key && e.ttl == r.ttl)
    requires forall k :: KeyStats(Absorb(g0, r), k) == Join(KeyStats(g0, k), Own(r, k))
    ensures forall k :: KeyStats(Absorb(g0, r), k) == KeyStats(init + [r], k)
    ensures forall e :: e in Absorb(g0, r) ==> IsLastTtl(init + [r], e.key, e.ttl)
  {
    var rows := init + [r];
    forall k
      ensures KeyStats(Absorb(g0, r), k) == KeyStats(rows, k)
    {
      KeyStatsAppend(init, [r], k);
      assert KeyStats([r], k) == Own(r, k);
    }
    forall e | e in Absorb(g0, r)
      ensures IsLastTtl(rows, e.key, e.ttl)
    {
      if e.key == r.key && e.ttl == r.ttl {
        assert rows[|init|] == r;
      } else {
        assert IsLastTtl(init, e.key, e.ttl);
        var i :| 0 <= i < |init| && init[i].key == e.key && init[i].ttl == e.ttl
                 && forall j :: i < j < |init| ==> init[j].key != e.key;
        assert e in g0;
        assert rows[i] == init[i];
        assert forall j :: i < j < |rows| ==> rows[j].key != e.key;
      }
    }
  }
}

=== FILE: base.dfy ===
/**
 Column types of the ClickHouse schema, with their widths made explicit
 (Dafny integers are unbounded), and an Option type for "absent".
 */
module Base {

  datatype Option<+T> = None | Some(value: T)

  const U16: int := 0x1_0000
  const U32: int := 0x1_0000_0000
  const U64: int := 0x1_0000_0000_0000_0000

  /** ClickHouse `UInt16`, the type of a ttl. */
  type uint16 = x: int | 0 <= x < U16

  /** ClickHouse `UInt64`, the type of a count. */
  type uint64 = x: int | 0 <= x < U64

  /** ClickHouse `DateTime`: unsigned 32-bit seconds since the epoch. */
  type DateTime = x: int | 0 <= x < U32
}

=== FILE: ingest.dfy ===
/**
 `CHStore.Update`: loads one batch into the permanent aggregate tables.

 It first drops both staging tables, ignoring any failure, then runs six
 statements in order and returns at the first that fails, wrapping the
 error with a message naming that step: create `tuples_temp`, create
 `individual_temp`, load the batch's tuples, merge them into `tuples`, load
 the batch's individuals, merge them into `individual`. Nothing is rolled
 back, and the staging tables are left in place after the call. The
 elapsed time is a parameter; it is reported only when every step succeeds.
 */
module Ingest {
  import opened Base
  import opened Aggregate
  import opened Schema
  import opened Statements

  const Pipeline: seq<Stmt> :=
    [CreateTuplesTemp, CreateIndividualTemp, LoadTuples, MergeTuples, LoadIndividual, MergeIndividual]

  /**
   The context `errors.Wrap` puts in front of the error of a failing step.
   Only pipeline statements have one: the drops' errors are ignored.
   */
  function Context(s: Stmt): string
    requires s in Pipeline
  {
    match s
    case CreateTuplesTemp => "CHStore.Update failed to create temporary tuples table"
    case CreateIndividualTemp => "CHStore.Update failed to create temporary individual table"
    case LoadTuples => "CHStore.Update tuples failed"
    case MergeTuples => "CHStore.Update failed to insert into tuples"
    case LoadIndividual => "CHStore.Update individual failed"
    case MergeIndividual => "CHStore.Update failed to insert into individual"
  }

  datatype UpdateError = UpdateError(step: Stmt, context: string)

  /** `UpdateResult`; only its `Duration` is written by this store, and only on success. */
  datatype UpdateResult = UpdateResult(duration: Option<nat>)

  datatype UpdateOutcome = UpdateOutcome(db: Db, result: UpdateResult, err: Option<UpdateError>)

  /** The two leading `DROP TABLE`s, whose errors are discarded. */
  function DropStaging(db: Db, batch: Batch, faults: set<Stmt>): (r: Db)
    ensures r.tuples == db.tuples && r.individual == db.individual && r.filenames == db.filenames
    ensures r.tuplesTemp.Some? <==> db.tuplesTemp.Some? && DropTuplesTemp in faults
    ensures r.individualTemp.Some? <==> db.individualTemp.Some? && DropIndividualTemp in faults
  {
    Attempt(Attempt(db, DropTuplesTemp, batch, faults), DropIndividualTemp, batch, faults)
  }

  /**
   `Update` can succeed: no pipeline statement fails, and each staging
   table is either absent already or its drop goes through.
   */
  predicate Ready(db: Db, faults: set<Stmt>)
  {
    && PipelineClear(faults)
    && (db.tuplesTemp.None? || DropTuplesTemp !in faults)
    && (db.individualTemp.None? || DropIndividualTemp !in faults)
  }

  /**
   Step `i` of the pipeline is bound to fail: the statement faults, or it
   is a `CREATE` of a staging table that survived its `DROP`.
   */
  predicate FailsAt(db: Db, faults: set<Stmt>, i: nat)
    requires i < |Pipeline|
  {
    || Pipeline[i] in faults
    || (i == 0 && db.tuplesTemp.Some? && DropTuplesTemp in faults)
    || (i == 1 && db.individualTemp.Some? && DropIndividualTemp in faults)
  }

  /** The first step of the pipeline that is bound to fail, if any. */
  function FirstFailure(db: Db, faults: set<Stmt>): (r: Option<nat>)
    ensures r.Some? ==> r.value < |Pipeline| && FailsAt(db, faults, r.value)
    ensures r.Some? ==> forall j :: 0 <= j < r.value ==> !FailsAt(db, faults, j)
    ensures r.None? ==> forall j :: 0 <= j < |Pipeline| ==> !FailsAt(db, faults, j)
  {
    if FailsAt(db, faults, 0) then Some(0)
    else if FailsAt(db, faults, 1) then Some(1)
    else if FailsAt(db, faults, 2) then Some(2)
    else if FailsAt(db, faults, 3) then Some(3)
    else if FailsAt(db, faults, 4) then Some(4)
    else if FailsAt(db, faults, 5) then Some(5)
    else None
  }

  /** The state a successful `Update` leaves. */
  function Loaded(db: Db, batch: Batch): Db
  {
    db.(tuples := db.tuples + Group(batch.tuples),
        individual := db.individual + Group(batch.individual),
        tuplesTemp := Some(batch.tuples),
        individualTemp := Some(batch.individual))
  }

  function Update(db: Db, batch: Batch, faults: set<Stmt>, elapsed: nat): (out: UpdateOutcome)
    ensures out.err.None? <==> Ready(db, faults)
    ensures out.err.None? ==> out.db == Loaded(db, batch) && out.result.duration == Some(elapsed)
    ensures out.err.Some? ==> out.result.duration.None?
    ensures out.db.filenames == db.filenames
    ensures out.err.Some? ==> out.db.individual == db.individual
    ensures out.err.Some? ==>
              out.db.tuples == (if out.err.value.step in {LoadIndividual, MergeIndividual}
                                then db.tuples + Group(batch.tuples) else db.tuples)
    ensures out.err.Some? && out.err.value.step in {LoadTuples, MergeTuples} ==> out.db.individualTemp == Some([])
    ensures out.err.None? <==> FirstFailure(db, faults).None?
    ensures out.err.Some? ==> FirstFailure(db, faults).Some? && out.err.value.step == Pipeline[FirstFailure(db, faults).value]
    ensures out.err.Some? ==> out.err.value.context == Context(out.err.value.step)
  {
    var staged := DropStaging(db, batch, faults);
    var run := Run(staged, Pipeline, batch, faults);
    RunIsSteps(staged, batch, faults);
    StepsFailFirst(db, batch, faults);
    StepsSucceed(staged, batch, faults);
    StepsLoad(staged, batch, faults);
    StepsFail(staged, batch, faults);
    assert Loaded(staged, batch) == Loaded(db, batch);
    match run.failed
    case None => UpdateOutcome(run.db, UpdateResult(Some(elapsed)), None)
    case Some(i) =>
      var step := Pipeline[i];
      UpdateOutcome(run.db, UpdateResult(None), Some(UpdateError(step, Context(step))))
  }

  /**
   `Update` stops at the first pipeline statement that fails and reports
   that statement, provided the drops left no staging table behind.
   */
  lemma UpdateStopsAtFirstFault(db: Db, batch: Batch, faults: set<Stmt>, elapsed: nat, i: nat)
    requires i < |Pipeline|
    requires db.tuplesTemp.None? || DropTuplesTemp !in faults
    requires db.individualTemp.None? || DropIndividualTemp !in faults
    requires forall j :: 0 <= j < i ==> Pipeline[j] !in faults
    requires Pipeline[i] in faults
    ensures Update(db, batch, faults, elapsed).err == Some(UpdateError(Pipeline[i], Context(Pipeline[i])))
  {
    var staged := DropStaging(db, batch, faults);
    RunIsSteps(staged, batch, faults);
    StepsFailAt(staged, batch, faults, i);
  }

  /** The pipeline, run after the drops, fails exactly at the first step bound to fail. */
  lemma StepsFailFirst(db: Db, batch: Batch, faults: set<Stmt>)
    ensures Steps(DropStaging(db, batch, faults), batch, faults).failed == FirstFailure(db, faults)
  {
    var s0 := DropStaging(db, batch, faults);
    var P := Pipeline;
    assert P[0] == CreateTuplesTemp && P[1] == CreateIndividualTemp && P[2] == LoadTuples;
    assert P[3] == MergeTuples && P[4] == LoadIndividual && P[5] == MergeIndividual;
    var c := CreatePhase(RunResult(s0, None), batch, faults);
    CreatePhaseFacts(s0, batch, faults);
    if c.failed.Some? {
      FailedStays(c, batch, faults);
    } else {
      assert c == RunResult(c.db, None);
      var t := TuplesPhase(c, batch, faults);
      TuplesPhaseFacts(c.db, batch, faults);
      if t.failed.Some? {
        FailedStays(t, batch, faults);
      } else {
        assert t == RunResult(t.db, None);
        IndividualPhaseFacts(t.db, batch, faults);
      }
    }
  }

  lemma StepsFailAt(s0: Db, batch: Batch, faults: set<Stmt>, i: nat)
    requires i < |Pipeline|
    requires s0.tuplesTemp.None? && s0.individualTemp.None?
    requires forall j :: 0 <= j < i ==> Pipeline[j] !in faults
    requires Pipeline[i] in faults
    ensures Steps(s0, batch, faults).failed == Some(i)
  {
    var P := Pipeline;
    assert P[0] == CreateTuplesTemp && P[1] == CreateIndividualTemp && P[2] == LoadTuples;
    assert P[3] == MergeTuples && P[4] == LoadIndividual && P[5] == MergeIndividual;
    var c := CreatePhase(RunResult(s0, None), batch, faults);
    CreatePhaseFacts(s0, batch, faults);
    if i <= 1 {
      FailedStays(c, batch, faults);
      assert c.failed == Some(i);
    } else {
      assert CreateTuplesTemp !in faults && CreateIndividualTemp !in faults;
      assert c == RunResult(c.db, None);
      var t := TuplesPhase(c, batch, faults);
      TuplesPhaseFacts(c.db, batch, faults);
      if i <= 3 {
        FailedStays(t, batch, faults);
        assert t.failed == Some(i);
      } else {
        assert LoadTuples !in faults && MergeTuples !in faults;
        assert t == RunResult(t.db, None);
        IndividualPhaseFacts(t.db, batch, faults);
        assert IndividualPhase(t, batch, faults).failed == Some(i);
      }
    }
  }

  /**
   A staging table left over from an earlier call whose `DROP` fails makes
   `Update` fail at the `CREATE` of that table, before any data moves.
   */
  lemma UpdateBlockedByLeftover(db: Db, batch: Batch, faults: set<Stmt>, elapsed: nat)
    requires db.tuplesTemp.Some? && DropTuplesTemp in faults
    ensures var out := Update(db, batch, faults, elapsed);
      && out.err == Some(UpdateError(CreateTuplesTemp, Context(CreateTuplesTemp)))
      && out.db.tuples == db.tuples && out.db.individual == db.individual
      && out.db.tuplesTemp == db.tuplesTemp
  {
    var staged := DropStaging(db, batch, faults);
    RunIsSteps(staged, batch, faults);
    PhasesOf(staged, batch, faults);
    assert Pipeline[0] == CreateTuplesTemp;
  }

  /** `Steps` unfolded through the facts of its three phases. */
  lemma PhasesOf(s0: Db, batch: Batch, faults: set<Stmt>)
    ensures var c := CreatePhase(RunResult(s0, None), batch, faults);
      var t := TuplesPhase(c, batch, faults);
      && (c.failed.Some? ==> Steps(s0, batch, faults) == c)
      && (c.failed.None? && t.failed.Some? ==> Steps(s0, batch, faults) == t)
  {
    var c := CreatePhase(RunResult(s0, None), batch, faults);
    CreatePhaseFacts(s0, batch, faults);
    var t := TuplesPhase(c, batch, faults);
    if c.failed.Some? {
      FailedStays(c, batch, faults);
    } else {
      TuplesPhaseFacts(c.db, batch, faults);
      if t.failed.Some? {
        FailedStays(t, batch, faults);
      } else {
        IndividualPhaseFacts(t.db, batch, faults);
      }
    }
  }

  /**
   One line of `Update`'s body: if no earlier statement failed, run `s`,
   and on its error return early naming step `k`.
   */
  function Then(r: RunResult, k: nat, s: Stmt, batch: Batch, faults: set<Stmt>): RunResult
  {
    if r.failed.Some? then r
    else
      match Exec(r.db, s, batch, faults)
      case None => RunResult(r.db, Some(k))
      case Some(d) => RunResult(d, None)
  }

  /** The pipeline written out line by line, as `Update` writes it, in its three pairs of statements. */
  function Steps(s0: Db, batch: Batch, faults: set<Stmt>): RunResult
  {
    IndividualPhase(TuplesPhase(CreatePhase(RunResult(s0, None), batch, faults), batch, faults), batch, faults)
  }

  function CreatePhase(r: RunResult, batch: Batch, faults: set<Stmt>): RunResult
  {
    Then(Then(r, 0, CreateTuplesTemp, batch, faults), 1, CreateIndividualTemp, batch, faults)
  }

  function TuplesPhase(r: RunResult, batch: Batch, faults: set<Stmt>): RunResult
  {
    Then(Then(r, 2, LoadTuples, batch, faults), 3, MergeTuples, batch, faults)
  }

  function IndividualPhase(r: RunResult, batch: Batch, faults: set<Stmt>): RunResult
  {
    Then(Then(r, 4, LoadIndividual, batch, faults), 5, MergeIndividual, batch, faults)
  }

  /** `Then` applied to `steps[k]`, `steps[k + 1]`, ... in turn, numbering the steps from `k`. */
  function ThenAll(r: RunResult, steps: seq<Stmt>, k: nat, batch: Batch, faults: set<Stmt>): RunResult
    requires k <= |steps|
    decreases |steps| - k
  {
    if k == |steps| then r else ThenAll(Then(r, k, steps[k], batch, faults), steps, k + 1, batch, faults)
  }

  /** `failed`, counted from `k` rather than from 0. */
  function Shift(r: RunResult, k: nat): RunResult
  {
    RunResult(r.db, if r.failed.Some? then Some(r.failed.value + k) else None)
  }

  lemma {:induction false} ThenAllFailed(r: RunResult, steps: seq<Stmt>, k: nat, batch: Batch, faults: set<Stmt>)
    requires k <= |steps|
    requires r.failed.Some?
    ensures ThenAll(r, steps, k, batch, faults) == r
    decreases |steps| - k
  {
    if k < |steps| {
      ThenAllFailed(r, steps, k + 1, batch, faults);
    }
  }

  /** The loop of `Run` over the statements from `k` on is the fold of `Then` over them. */
  lemma {:induction false} RunIsThenAll(db: Db, steps: seq<Stmt>, k: nat, batch: Batch, faults: set<Stmt>)
    requires k <= |steps|
    ensures ThenAll(RunResult(db, None), steps, k, batch, faults) == Shift(Run(db, steps[k..], batch, faults), k)
    decreases |steps| - k
  {
    if k == |steps| {
      assert steps[k..] == [];
    } else {
      StepOrStop(db, steps, k, batch, faults);
      match Exec(db, steps[k], batch, faults)
      case None =>
        ThenAllFailed(RunResult(db, Some(k)), steps, k + 1, batch, faults);
      case Some(d) =>
        RunIsThenAll(d, steps, k + 1, batch, faults);
    }
  }

  /** The generic loop over `Pipeline` is the straight-line sequence. */
  lemma RunIsSteps(s0: Db, batch: Batch, faults: set<Stmt>)
    ensures Run(s0, Pipeline, batch, faults) == Steps(s0, batch, faults)
  {
    var P := Pipeline;
    assert P[0..] == P;
    RunIsThenAll(s0, P, 0, batch, faults);
    var r0 := RunResult(s0, None);
    var c := CreatePhase(r0, batch, faults);
    var t := TuplesPhase(c, batch, faults);
    assert ThenAll(r0, P, 0, batch, faults) == ThenAll(c, P, 2, batch, faults);
    assert ThenAll(c, P, 2, batch, faults) == ThenAll(t, P, 4, batch, faults);
    assert ThenAll(t, P, 4, batch, faults) == IndividualPhase(t, batch, faults);
  }

  /** No statement of the pipeline is bound to fail. */
  predicate PipelineClear(faults: set<Stmt>)
  {
    && CreateTuplesTemp !in faults && CreateIndividualTemp !in faults
    && LoadTuples !in faults && MergeTuples !in faults
    && LoadIndividual !in faults && MergeIndividual !in faults
  }

  /** The pipeline gets through exactly when no step faults and neither staging table is left over. */
  lemma StepsSucceed(s0: Db, batch: Batch, faults: set<Stmt>)
    ensures Steps(s0, batch, faults).failed.None?
            <==> PipelineClear(faults) && s0.tuplesTemp.None? && s0.individualTemp.None?
  {
  }

  /** A pipeline that gets through leaves the batch staged and its groups merged. */
  lemma StepsLoad(s0: Db, batch: Batch, faults: set<Stmt>)
    ensures PipelineClear(faults) && s0.tuplesTemp.None? && s0.individualTemp.None? ==>
              Steps(s0, batch, faults) == RunResult(Loaded(s0, batch), None)
  {
    if PipelineClear(faults) && s0.tuplesTemp.None? && s0.individualTemp.None? {
      var s1 := s0.(tuplesTemp := Some([]));
      var s2 := s1.(individualTemp := Some([]));
      var s3 := s2.(tuplesTemp := Some(batch.tuples));
      var s4 := s3.(tuples := s0.tuples + Group(batch.tuples));
      var s5 := s4.(individualTemp := Some(batch.individual));
      ThenStep(s0, 0, CreateTuplesTemp, batch, faults, s1);
      ThenStep(s1, 1, CreateIndividualTemp, batch, faults, s2);
      assert [] + batch.tuples == batch.tuples;
      ThenStep(s2, 2, LoadTuples, batch, faults, s3);
      ThenStep(s3, 3, MergeTuples, batch, faults, s4);
      assert [] + batch.individual == batch.individual;
      ThenStep(s4, 4, LoadIndividual, batch, faults, s5);
      ThenStep(s5, 5, MergeIndividual, batch, faults, Loaded(s0, batch));
    }
  }

  lemma ThenStep(db: Db, k: nat, s: Stmt, batch: Batch, faults: set<Stmt>, d: Db)
    requires s !in faults && Accepts(db, s) && Effect(db, s, batch) == d
    ensures Then(RunResult(db, None), k, s, batch, faults) == RunResult(d, None)
  {
  }

  /**
   What the pipeline leaves when a step fails: `individual` untouched,
   `tuples` extended by the batch's groups only once its merge has run,
   and `individual_temp` empty when the tuples steps fail.
   */
  lemma StepsFail(s0: Db, batch: Batch, faults: set<Stmt>)
    ensures var r := Steps(s0, batch, faults);
      && r.db.filenames == s0.filenames
      && (r.failed.Some? ==> r.db.individual == s0.individual)
      && (r.failed.Some? ==> r.db.tuples == if r.failed.value >= 4 then s0.tuples + Group(batch.tuples) else s0.tuples)
      && (r.failed.Some? && 2 <= r.failed.value <= 3 ==> r.db.individualTemp == Some([]))
  {
    var c := CreatePhase(RunResult(s0, None), batch, faults);
    CreatePhaseFacts(s0, batch, faults);
    var t := TuplesPhase(c, batch, faults);
    if c.failed.Some? {
      FailedStays(c, batch, faults);
    } else {
      TuplesPhaseFacts(c.db, batch, faults);
      if t.failed.Some? {
        FailedStays(t, batch, faults);
      } else {
        IndividualPhaseFacts(t.db, batch, faults);
      }
    }
  }

  /** Once a step has failed, the remaining lines return at once. */
  lemma FailedStays(r: RunResult, batch: Batch, faults: set<Stmt>)
    requires r.failed.Some?
    ensures TuplesPhase(r, batch, faults) == r && IndividualPhase(r, batch, faults) == r
  {
  }

  lemma CreatePhaseFacts(db: Db, batch: Batch, faults: set<Stmt>)
    ensures var c := CreatePhase(RunResult(db, None), batch, faults);
      && c.db.tuples == db.tuples && c.db.individual == db.individual && c.db.filenames == db.filenames
      && c.failed == (if CreateTuplesTemp in faults || db.tuplesTemp.Some? then Some(0)
                      else if CreateIndividualTemp in faults || db.individualTemp.Some? then Some(1)
                      else None)
      && (c.failed.None? ==> c.db.individualTemp == Some([]) && c.db.tuplesTemp == Some([]))
  {
  }

  lemma TuplesPhaseFacts(db: Db, batch: Batch, faults: set<Stmt>)
    requires db.tuplesTemp == Some([]) && db.individualTemp == Some([])
    ensures var t := TuplesPhase(RunResult(db, None), batch, faults);
      && t.db.individual == db.individual && t.db.filenames == db.filenames
      && t.db.individualTemp == Some([])
      && t.failed == (if LoadTuples in faults then Some(2) else if MergeTuples in faults then Some(3) else None)
      && (t.failed.Some? ==> t.db.tuples == db.tuples)
      && (t.failed.None? ==> t.db.tuples == db.tuples + Group(batch.tuples) && t.db.tuplesTemp == Some(batch.tuples))
  {
    assert [] + batch.tuples == batch.tuples;
  }

  lemma IndividualPhaseFacts(db: Db, batch: Batch, faults: set<Stmt>)
    requires db.individualTemp.Some?
    ensures var i := IndividualPhase(RunResult(db, None), batch, faults);
      && i.db.tuples == db.tuples && i.db.filenames == db.filenames
      && i.failed == (if LoadIndividual in faults then Some(4) else if MergeIndividual in faults then Some(5) else None)
      && (i.failed.Some? ==> i.db.individual == db.individual)
  {
  }

  /**
   One unrolling of `Run` on the suffix of `steps` from `k`: either step
   `k` fails there, or the run continues after it.
   */
  lemma StepOrStop(db: Db, steps: seq<Stmt>, k: nat, batch: Batch, faults: set<Stmt>)
    requires k < |steps|
    ensures var r := Run(db, steps[k..], batch, faults);
      match Exec(db, steps[k], batch, faults)
      case None => r == RunResult(db, Some(0))
      case Some(d) =>
        var rest := Run(d, steps[k + 1..], batch, faults);
        r == RunResult(rest.db, if rest.failed.Some? then Some(rest.failed.value + 1) else None)
  {
    assert steps[k..][0] == steps[k];
    assert steps[k..][1..] == steps[k + 1..];
  }
}

=== FILE: lookup.dfy ===
/**
 The read side of the store: the five lookups of `CHStore`.

 `FindQueryTuples` returns raw fragments; the other four run
 `SELECT key, minMerge(first), maxMerge(last), sumMerge(count) ... WHERE p
 GROUP BY key ORDER BY ...`, which this module models once, generically, as
 `MergedLookup`. Every lookup compares stored query names (and `which = 'Q'`
 values) with the reversed input and answers (and `which = 'A'` values)
 with the input as given, then reverses stored query names back.
 */
module Lookup {
  import opened Base
  import opened Strings
  import opened Aggregate
  import opened Schema
  import Sorting

  /** A row of a merged lookup: a key and the merged state of all its fragments. */
  datatype Merged<K> = Merged(key: K, stats: Stats)

  /** The records whose key satisfies `pred` (a SQL `WHERE` on key columns), in table order. */
  function Where<K(==,!new), X(!new)>(table: seq<Record<K, X>>, pred: K -> bool): (r: seq<Record<K, X>>)
    ensures forall e :: multiset(r)[e] == if pred(e.key) then multiset(table)[e] else 0
    ensures forall k :: KeyStats(r, k) == if pred(k) then KeyStats(table, k) else None
  {
    if |table| == 0 then []
    else
      var rest := Where(table[1..], pred);
      var r := if pred(table[0].key) then [table[0]] + rest else rest;
      WhereStep(table, pred, rest, r);
      r
  }

  lemma WhereStep<K, X>(table: seq<Record<K, X>>, pred: K -> bool, rest: seq<Record<K, X>>, r: seq<Record<K, X>>)
    requires |table| > 0
    requires forall e :: multiset(rest)[e] == if pred(e.key) then multiset(table[1..])[e] else 0
    requires forall k :: KeyStats(rest, k) == if pred(k) then KeyStats(table[1..], k) else None
    requires r == if pred(table[0].key) then [table[0]] + rest else rest
    ensures forall e :: multiset(r)[e] == if pred(e.key) then multiset(table)[e] else 0
    ensures forall k :: KeyStats(r, k) == if pred(k) then KeyStats(table, k) else None
  {
    WhereStepMultiset(table, pred, rest, r);
    if pred(table[0].key) {
      assert r[1..] == rest;
    }
  }

  lemma WhereStepMultiset<K, X>(table: seq<Record<K, X>>, pred: K -> bool, rest: seq<Record<K, X>>, r: seq<Record<K, X>>)
    requires |table| > 0
    requires forall e :: multiset(rest)[e] == if pred(e.key) then multiset(table[1..])[e] else 0
    requires r == if pred(table[0].key) then [table[0]] + rest else rest
    ensures forall e :: multiset(r)[e] == if pred(e.key) then multiset(table)[e] else 0
  {
    var x := table[0];
    assert table == [x] + table[1..];
    assert multiset(table) == multiset{x} + multiset(table[1..]);
    if pred(x.key) {
      assert multiset(r) == multiset{x} + multiset(rest);
    }
  }

  function KeysOf<K, X>(g: seq<Record<K, X>>): (ks: seq<K>)
    ensures |ks| == |g|
    ensures forall i :: 0 <= i < |g| ==> ks[i] == g[i].key
  {
    seq(|g|, i requires 0 <= i < |g| => g[i].key)
  }

  /**
   The keys of a `WHERE pred GROUP BY key ORDER BY ...`: every key that
   satisfies `pred` and occurs in the table, once, in increasing order.
   */
  function SortedKeys<K(==,!new), X(!new)>(table: seq<Record<K, X>>, pred: K -> bool, less: (K, K) -> bool)
    : (ks: seq<K>)
    requires Sorting.StrictTotalOrder(less)
    ensures forall i :: 0 <= i < |ks| ==> pred(ks[i]) && KeyStats(table, ks[i]).Some?
    ensures forall k :: pred(k) && KeyStats(table, k).Some? ==> exists i :: 0 <= i < |ks| && ks[i] == k
    ensures Sorting.StrictlySorted(ks, less)
  {
    var g := Group(Where(table, pred));
    var raw := KeysOf(g);
    var ks := Sorting.Sort(raw, less);
    SortedGroupKeys(table, pred, less, g, raw, ks);
    ks
  }

  lemma SortedGroupKeys<K(!new), X(!new)>(table: seq<Record<K, X>>, pred: K -> bool, less: (K, K) -> bool,
                                          g: seq<Record<K, X>>, raw: seq<K>, ks: seq<K>)
    requires Sorting.StrictTotalOrder(less)
    requires g == Group(Where(table, pred))
    requires raw == KeysOf(g)
    requires ks == Sorting.Sort(raw, less)
    ensures forall i :: 0 <= i < |ks| ==> pred(ks[i]) && KeyStats(table, ks[i]).Some?
    ensures forall k :: pred(k) && KeyStats(table, k).Some? ==> exists i :: 0 <= i < |ks| && ks[i] == k
    ensures Sorting.StrictlySorted(ks, less)
  {
    assert Sorting.Distinct(raw);
    Sorting.SortSorted(raw, less);
    GroupKeys(table, pred, g, raw);
    Sorting.SortSameElements(raw, less);
    forall i | 0 <= i < |ks|
      ensures pred(ks[i]) && KeyStats(table, ks[i]).Some?
    {
      assert ks[i] in ks;
    }
    forall k | pred(k) && KeyStats(table, k).Some?
      ensures exists i :: 0 <= i < |ks| && ks[i] == k
    {
      assert k in ks;
    }
  }

  /** The grouped keys are exactly the keys in the table that satisfy `pred`. */
  lemma GroupKeys<K(!new), X(!new)>(table: seq<Record<K, X>>, pred: K -> bool, g: seq<Record<K, X>>, raw: seq<K>)
    requires g == Group(Where(table, pred))
    requires raw == KeysOf(g)
    ensures forall k :: k in raw <==> pred(k) && KeyStats(table, k).Some?
  {
    var w := Where(table, pred);
    assert forall k :: KeyStats(g, k) == KeyStats(w, k);
    forall k
      ensures k in raw <==> pred(k) && KeyStats(table, k).Some?
    {
      KeysOfIn(g, raw, k);
    }
  }

  lemma KeysOfIn<K, X>(g: seq<Record<K, X>>, raw: seq<K>, k: K)
    requires raw == KeysOf(g)
    ensures k in raw <==> KeyStats(g, k).Some?
  {
    if k in raw {
      var i :| 0 <= i < |raw| && raw[i] == k;
      assert g[i].key == k;
    }
    if KeyStats(g, k).Some? {
      var i :| 0 <= i < |g| && g[i].key == k;
      assert raw[i] == k;
    }
  }

  /**
   `WHERE pred GROUP BY key ORDER BY ...`: one row per key that satisfies
   `pred` and occurs in the table, carrying that key's merged state, in
   strictly increasing `less` order.
   */
  function MergedLookup<K(==,!new), X(!new)>(table: seq<Record<K, X>>, pred: K -> bool, less: (K, K) -> bool)
    : (r: seq<Merged<K>>)
    requires Sorting.StrictTotalOrder(less)
    ensures forall i :: 0 <= i < |r| ==> pred(r[i].key) && KeyStats(table, r[i].key) == Some(r[i].stats)
    ensures forall k :: pred(k) && KeyStats(table, k).Some? ==> exists i :: 0 <= i < |r| && r[i].key == k
    ensures forall i, j :: 0 <= i < j < |r| ==> less(r[i].key, r[j].key)
  {
    var ks := SortedKeys(table, pred, less);
    var r := RowsFor(table, ks);
    RowsOfKeys(table, pred, less, ks, r);
    r
  }

  /** One row per key of `ks`, with that key's merged state. */
  function RowsFor<K(==), X>(table: seq<Record<K, X>>, ks: seq<K>): (r: seq<Merged<K>>)
    requires forall i :: 0 <= i < |ks| ==> KeyStats(table, ks[i]).Some?
    ensures |r| == |ks|
    ensures forall i :: 0 <= i < |ks| ==> r[i] == Merged(ks[i], KeyStats(table, ks[i]).value)
  {
    seq(|ks|, i requires 0 <= i < |ks| => Merged(ks[i], KeyStats(table, ks[i]).value))
  }

  lemma RowsOfKeys<K(!new), X>(table: seq<Record<K, X>>, pred: K -> bool, less: (K, K) -> bool,
                               ks: seq<K>, r: seq<Merged<K>>)
    requires forall i :: 0 <= i < |ks| ==> pred(ks[i]) && KeyStats(table, ks[i]).Some?
    requires forall k :: pred(k) && KeyStats(table, k).Some? ==> exists i :: 0 <= i < |ks| && ks[i] == k
    requires Sorting.StrictlySorted(ks, less)
    requires |r| == |ks|
    requires forall i :: 0 <= i < |ks| ==> r[i] == Merged(ks[i], KeyStats(table, ks[i]).value)
    ensures forall i :: 0 <= i < |r| ==> pred(r[i].key) && KeyStats(table, r[i].key) == Some(r[i].stats)
    ensures forall k :: pred(k) && KeyStats(table, k).Some? ==> exists i :: 0 <= i < |r| && r[i].key == k
    ensures forall i, j :: 0 <= i < j < |r| ==> less(r[i].key, r[j].key)
  {
    forall k | pred(k) && KeyStats(table, k).Some?
      ensures exists i :: 0 <= i < |r| && r[i].key == k
    {
      var i :| 0 <= i < |ks| && ks[i] == k;
      assert r[i].key == k;
    }
  }

  /**
   A merged lookup sees the table only through the merged state of each
   key, so two tables that agree on every key's merged state give the same
   rows in the same order.
   */
  lemma MergedLookupDependsOnlyOnKeyStats<K(!new), X(!new)>(
    t1: seq<Record<K, X>>, t2: seq<Record<K, X>>, pred: K -> bool, less: (K, K) -> bool)
    requires Sorting.StrictTotalOrder(less)
    requires forall k :: KeyStats(t1, k) == KeyStats(t2, k)
    ensures MergedLookup(t1, pred, less) == MergedLookup(t2, pred, less)
  {
    var ks1, ks2 := SortedKeys(t1, pred, less), SortedKeys(t2, pred, less);
    SameKeys(t1, t2, pred, less, ks1, ks2);
    Sorting.StrictlySortedUnique(ks1, ks2, less);
  }

  lemma SameKeys<K(!new), X(!new)>(
    t1: seq<Record<K, X>>, t2: seq<Record<K, X>>, pred: K -> bool, less: (K, K) -> bool, ks1: seq<K>, ks2: seq<K>)
    requires forall k :: KeyStats(t1, k) == KeyStats(t2, k)
    requires forall i :: 0 <= i < |ks1| ==> pred(ks1[i]) && KeyStats(t1, ks1[i]).Some?
    requires forall k :: pred(k) && KeyStats(t1, k).Some? ==> exists i :: 0 <= i < |ks1| && ks1[i] == k
    requires forall i :: 0 <= i < |ks2| ==> pred(ks2[i]) && KeyStats(t2, ks2[i]).Some?
    requires forall k :: pred(k) && KeyStats(t2, k).Some? ==> exists i :: 0 <= i < |ks2| && ks2[i] == k
    ensures forall x :: x in ks1 <==> x in ks2
  {
    forall x
      ensures x in ks1 ==> x in ks2
      ensures x in ks2 ==> x in ks1
    {
      if x in ks1 {
        var i :| 0 <= i < |ks1| && ks1[i] == x;
        var j :| 0 <= j < |ks2| && ks2[j] == x;
      }
      if x in ks2 {
        var i :| 0 <= i < |ks2| && ks2[i] == x;
        var j :| 0 <= j < |ks1| && ks1[j] == x;
      }
    }
  }

  /* ---- the four lookup predicates, on stored keys ---- */

  /** `WHERE query = Reverse(input)`. */
  predicate FindQueryMatch(input: string, k: TupleKey)
  {
    k.query == Reverse(input)
  }

  /** `WHERE query = Reverse(input) OR answer = input`. */
  predicate FindTuplesMatch(input: string, k: TupleKey)
  {
    k.query == Reverse(input) || k.answer == input
  }

  /** `WHERE query LIKE Reverse(input)% OR answer LIKE input%`. */
  predicate LikeTuplesMatch(input: string, k: TupleKey)
  {
    IsPrefix(Reverse(input), k.query) || IsPrefix(input, k.answer)
  }

  /** `WHERE (which='A' AND value = input) OR (which='Q' AND value = Reverse(input))`. */
  predicate FindIndividualMatch(input: string, k: IndividualKey)
  {
    (k.which == A && k.value == input) || (k.which == Q && k.value == Reverse(input))
  }

  /** `WHERE (which='A' AND value LIKE input%) OR (which='Q' AND value LIKE Reverse(input)%)`. */
  predicate LikeIndividualMatch(input: string, k: IndividualKey)
  {
    (k.which == A && IsPrefix(input, k.value)) || (k.which == Q && IsPrefix(Reverse(input), k.value))
  }

  function ShowTuples(rows: seq<Merged<TupleKey>>): seq<Merged<TupleKey>>
  {
    seq(|rows|, i requires 0 <= i < |rows| => Merged(FlipTupleKey(rows[i].key), rows[i].stats))
  }

  function ShowIndividuals(rows: seq<Merged<IndividualKey>>): seq<Merged<IndividualKey>>
  {
    seq(|rows|, i requires 0 <= i < |rows| => Merged(FlipIndividualKey(rows[i].key), rows[i].stats))
  }

  /**
   A merged tuple lookup: the rows of `MergedLookup` in the `ORDER BY query,
   answer` order, with their query names turned back to natural order.
   */
  function MergedTuples(table: seq<TupleRecord>, pred: TupleKey -> bool): (r: seq<Merged<TupleKey>>)
    ensures forall i :: 0 <= i < |r| ==> pred(FlipTupleKey(r[i].key))
    ensures forall i :: 0 <= i < |r| ==> KeyStats(table, FlipTupleKey(r[i].key)) == Some(r[i].stats)
    ensures forall k :: pred(k) && KeyStats(table, k).Some? ==> exists i :: 0 <= i < |r| && r[i].key == FlipTupleKey(k)
    ensures forall i, j :: 0 <= i < j < |r| ==>
              r[i].key != r[j].key && QueryAnswerOrdered(FlipTupleKey(r[i].key), FlipTupleKey(r[j].key))
  {
    TupleKeyLessIsStrictTotal();
    var m := MergedLookup(table, pred, TupleKeyLess);
    ShowTuplesFacts(table, pred, m);
    ShowTuples(m)
  }

  lemma ShowTuplesFacts(table: seq<TupleRecord>, pred: TupleKey -> bool, m: seq<Merged<TupleKey>>)
    requires forall i :: 0 <= i < |m| ==> pred(m[i].key) && KeyStats(table, m[i].key) == Some(m[i].stats)
    requires forall k :: pred(k) && KeyStats(table, k).Some? ==> exists i :: 0 <= i < |m| && m[i].key == k
    requires forall i, j :: 0 <= i < j < |m| ==> TupleKeyLess(m[i].key, m[j].key)
    ensures var r := ShowTuples(m);
      && (forall i :: 0 <= i < |r| ==> pred(FlipTupleKey(r[i].key)))
      && (forall i :: 0 <= i < |r| ==> KeyStats(table, FlipTupleKey(r[i].key)) == Some(r[i].stats))
      && (forall k :: pred(k) && KeyStats(table, k).Some? ==> exists i :: 0 <= i < |r| && r[i].key == FlipTupleKey(k))
      && (forall i, j :: 0 <= i < j < |r| ==>
            r[i].key != r[j].key && QueryAnswerOrdered(FlipTupleKey(r[i].key), FlipTupleKey(r[j].key)))
  {
    ShowTuplesKeys(m);
    ShowTuplesComplete(table, pred, m);
    ShowTuplesOrder(m);
  }

  lemma ShowTuplesKeys(m: seq<Merged<TupleKey>>)
    ensures var r := ShowTuples(m);
      forall i :: 0 <= i < |r| ==> FlipTupleKey(r[i].key) == m[i].key && r[i].stats == m[i].stats
  {
    var r := ShowTuples(m);
    forall i | 0 <= i < |r|
      ensures FlipTupleKey(r[i].key) == m[i].key
    {
      FlipTupleKeyInvolution(m[i].key);
    }
  }

  lemma ShowTuplesComplete(table: seq<TupleRecord>, pred: TupleKey -> bool, m: seq<Merged<TupleKey>>)
    requires forall k :: pred(k) && KeyStats(table, k).Some? ==> exists i :: 0 <= i < |m| && m[i].key == k
    ensures var r := ShowTuples(m);
      forall k :: pred(k) && KeyStats(table, k).Some? ==> exists i :: 0 <= i < |r| && r[i].key == FlipTupleKey(k)
  {
    var r := ShowTuples(m);
    forall k | pred(k) && KeyStats(table, k).Some?
      ensures exists i :: 0 <= i < |r| && r[i].key == FlipTupleKey(k)
    {
      var i :| 0 <= i < |m| && m[i].key == k;
      assert r[i].key == FlipTupleKey(k);
    }
  }

  lemma ShowTuplesOrder(m: seq<Merged<TupleKey>>)
    requires forall i, j :: 0 <= i < j < |m| ==> TupleKeyLess(m[i].key, m[j].key)
    ensures var r := ShowTuples(m);
      forall i, j :: 0 <= i < j < |r| ==>
        r[i].key != r[j].key && QueryAnswerOrdered(FlipTupleKey(r[i].key), FlipTupleKey(r[j].key))
  {
    var r := ShowTuples(m);
    ShowTuplesKeys(m);
    forall i, j | 0 <= i < j < |r|
      ensures r[i].key != r[j].key && QueryAnswerOrdered(FlipTupleKey(r[i].key), FlipTupleKey(r[j].key))
    {
      TupleKeyLessOrdersQueryAnswer(m[i].key, m[j].key);
    }
  }

  /**
   A merged individual lookup: the rows of `MergedLookup` in the `ORDER BY
   value` order, with `which = 'Q'` values turned back to natural order.
   */
  function MergedIndividuals(table: seq<IndividualRecord>, pred: IndividualKey -> bool): (r: seq<Merged<IndividualKey>>)
    ensures forall i :: 0 <= i < |r| ==> pred(FlipIndividualKey(r[i].key))
    ensures forall i :: 0 <= i < |r| ==> KeyStats(table, FlipIndividualKey(r[i].key)) == Some(r[i].stats)
    ensures forall k :: pred(k) && KeyStats(table, k).Some? ==>
              exists i :: 0 <= i < |r| && r[i].key == FlipIndividualKey(k)
    ensures forall i, j :: 0 <= i < j < |r| ==>
              r[i].key != r[j].key && LessOrEqual(FlipIndividualKey(r[i].key).value, FlipIndividualKey(r[j].key).value)
  {
    IndividualKeyLessIsStrictTotal();
    var m := MergedLookup(table, pred, IndividualKeyLess);
    ShowIndividualsFacts(table, pred, m);
    ShowIndividuals(m)
  }

  lemma ShowIndividualsFacts(table: seq<IndividualRecord>, pred: IndividualKey -> bool, m: seq<Merged<IndividualKey>>)
    requires forall i :: 0 <= i < |m| ==> pred(m[i].key) && KeyStats(table, m[i].key) == Some(m[i].stats)
    requires forall k :: pred(k) && KeyStats(table, k).Some? ==> exists i :: 0 <= i < |m| && m[i].key == k
    requires forall i, j :: 0 <= i < j < |m| ==> IndividualKeyLess(m[i].key, m[j].key)
    ensures var r := ShowIndividuals(m);
      && (forall i :: 0 <= i < |r| ==> pred(FlipIndividualKey(r[i].key)))
      && (forall i :: 0 <= i < |r| ==> KeyStats(table, FlipIndividualKey(r[i].key)) == Some(r[i].stats))
      && (forall k :: pred(k) && KeyStats(table, k).Some? ==>
            exists i :: 0 <= i < |r| && r[i].key == FlipIndividualKey(k))
      && (forall i, j :: 0 <= i < j < |r| ==>
            r[i].key != r[j].key && LessOrEqual(FlipIndividualKey(r[i].key).value, FlipIndividualKey(r[j].key).value))
  {
    var r := ShowIndividuals(m);
    forall i | 0 <= i < |r|
      ensures FlipIndividualKey(r[i].key) == m[i].key
    {
      FlipIndividualKeyInvolution(m[i].key);
    }
    forall k | pred(k) && KeyStats(table, k).Some?
      ensures exists i :: 0 <= i < |r| && r[i].key == FlipIndividualKey(k)
    {
      var i :| 0 <= i < |m| && m[i].key == k;
      assert r[i].key == FlipIndividualKey(k);
    }
    forall i, j | 0 <= i < j < |r|
      ensures r[i].key != r[j].key
      ensures LessOrEqual(FlipIndividualKey(r[i].key).value, FlipIndividualKey(r[j].key).value)
    {
      IndividualKeyLessOrdersValue(m[i].key, m[j].key);
    }
  }

  /* ---- the lookups ---- */

  /**
   `FindQueryTuples`: the raw fragments whose stored query is the reversed
   input, each as often as it is stored, with the query turned back.
   */
  function FindQueryTuples(table: seq<TupleRecord>, input: string): (r: seq<TupleRecord>)
    ensures forall i :: 0 <= i < |r| ==> r[i].key.query == input
    ensures forall i :: 0 <= i < |r| ==> r[i].(key := FlipTupleKey(r[i].key)) in table
    ensures forall f :: f in table && f.key.query == Reverse(input) ==>
              multiset(r)[f.(key := FlipTupleKey(f.key))] == multiset(table)[f]
  {
    var hits := Where(table, k => FindQueryMatch(input, k));
    var shown := seq(|hits|, i requires 0 <= i < |hits| => hits[i].(key := FlipTupleKey(hits[i].key)));
    FindQueryTuplesFacts(table, input, hits, shown);
    shown
  }

  lemma FindQueryTuplesFacts(table: seq<TupleRecord>, input: string, hits: seq<TupleRecord>, shown: seq<TupleRecord>)
    requires hits == Where(table, k => FindQueryMatch(input, k))
    requires |shown| == |hits|
    requires forall i :: 0 <= i < |hits| ==> shown[i] == hits[i].(key := FlipTupleKey(hits[i].key))
    ensures forall i :: 0 <= i < |shown| ==> shown[i].key.query == input
    ensures forall i :: 0 <= i < |shown| ==> shown[i].(key := FlipTupleKey(shown[i].key)) in table
    ensures forall f :: f in table && f.key.query == Reverse(input) ==>
              multiset(shown)[f.(key := FlipTupleKey(f.key))] == multiset(table)[f]
  {
    forall i | 0 <= i < |shown|
      ensures shown[i].key.query == input
      ensures shown[i].(key := FlipTupleKey(shown[i].key)) in table
    {
      assert hits[i] in multiset(hits);
      ReverseInvolution(input);
      FlipTupleKeyInvolution(hits[i].key);
    }
    forall f | f in table && f.key.query == Reverse(input)
      ensures multiset(shown)[f.(key := FlipTupleKey(f.key))] == multiset(table)[f]
    {
      FlipInjective(hits, shown, f);
    }
  }

  /** Flipping the key is injective on records, so it preserves multiplicities. */
  lemma FlipInjective(hits: seq<TupleRecord>, shown: seq<TupleRecord>, f: TupleRecord)
    requires |shown| == |hits|
    requires forall i :: 0 <= i < |hits| ==> shown[i] == hits[i].(key := FlipTupleKey(hits[i].key))
    ensures multiset(shown)[f.(key := FlipTupleKey(f.key))] == multiset(hits)[f]
  {
    var flip := (r: TupleRecord) => r.(key := FlipTupleKey(r.key));
    forall a | flip(a) == flip(f)
      ensures a == f
    {
      FlipRecordSame(a, f);
    }
    MapMultiplicity(hits, shown, flip, f);
  }

  /**
   A map that sends no other element onto the image of `x` gives that image
   exactly the multiplicity `x` had.
   */
  lemma {:induction false} MapMultiplicity<T>(xs: seq<T>, ys: seq<T>, F: T -> T, x: T)
    requires |ys| == |xs|
    requires forall i :: 0 <= i < |xs| ==> ys[i] == F(xs[i])
    requires forall a :: F(a) == F(x) ==> a == x
    ensures multiset(ys)[F(x)] == multiset(xs)[x]
  {
    if |xs| > 0 {
      var n := |xs| - 1;
      MapMultiplicity(xs[..n], ys[..n], F, x);
      assert xs == xs[..n] + [xs[n]];
      assert ys == ys[..n] + [ys[n]];
      assert ys[n] == F(x) <==> xs[n] == x;
    }
  }

  /** Two records show the same flipped record exactly when they are the same record. */
  lemma FlipRecordSame(a: TupleRecord, b: TupleRecord)
    ensures a.(key := FlipTupleKey(a.key)) == b.(key := FlipTupleKey(b.key)) <==> a == b
  {
    FlipTupleKeyInvolution(a.key);
    FlipTupleKeyInvolution(b.key);
  }

  /**
   `FindTuples`: one merged row per stored (query, type, answer) whose
   query is the input or whose answer is the input.
   */
  function FindTuples(table: seq<TupleRecord>, input: string): (r: seq<Merged<TupleKey>>)
    ensures forall i :: 0 <= i < |r| ==> r[i].key.query == input || r[i].key.answer == input
    ensures forall i :: 0 <= i < |r| ==> KeyStats(table, FlipTupleKey(r[i].key)) == Some(r[i].stats)
    ensures forall k :: FindTuplesMatch(input, k) && KeyStats(table, k).Some? ==>
              exists i :: 0 <= i < |r| && r[i].key == FlipTupleKey(k)
    ensures forall i, j :: 0 <= i < j < |r| ==>
              r[i].key != r[j].key && QueryAnswerOrdered(FlipTupleKey(r[i].key), FlipTupleKey(r[j].key))
  {
    var pred := k => FindTuplesMatch(input, k);
    var r := MergedTuples(table, pred);
    forall i | 0 <= i < |r|
      ensures r[i].key.query == input || r[i].key.answer == input
    {
      var k := FlipTupleKey(r[i].key);
      FlipTupleKeyInvolution(r[i].key);
      if k.query == Reverse(input) {
        ReverseInvolution(input);
      }
    }
    r
  }

  /**
   `LikeTuples`: one merged row per stored (query, type, answer) whose query
   ends with the input or whose answer starts with it.
   */
  function LikeTuples(table: seq<TupleRecord>, input: string): (r: seq<Merged<TupleKey>>)
    ensures forall i :: 0 <= i < |r| ==> IsSuffix(input, r[i].key.query) || IsPrefix(input, r[i].key.answer)
    ensures forall i :: 0 <= i < |r| ==> KeyStats(table, FlipTupleKey(r[i].key)) == Some(r[i].stats)
    ensures forall k :: LikeTuplesMatch(input, k) && KeyStats(table, k).Some? ==>
              exists i :: 0 <= i < |r| && r[i].key == FlipTupleKey(k)
    ensures forall i, j :: 0 <= i < j < |r| ==>
              r[i].key != r[j].key && QueryAnswerOrdered(FlipTupleKey(r[i].key), FlipTupleKey(r[j].key))
  {
    var pred := k => LikeTuplesMatch(input, k);
    var r := MergedTuples(table, pred);
    forall i | 0 <= i < |r|
      ensures IsSuffix(input, r[i].key.query) || IsPrefix(input, r[i].key.answer)
    {
      PrefixOfReversedIsSuffix(input, r[i].key.query);
    }
    r
  }

  /**
   `FindIndividual`: the merged rows of the input seen as an answer and of
   the input seen as a query; at most one of each.
   */
  function FindIndividual(table: seq<IndividualRecord>, input: string): (r: seq<Merged<IndividualKey>>)
    ensures forall i :: 0 <= i < |r| ==> r[i].key.value == input
    ensures |r| <= 2
    ensures forall i :: 0 <= i < |r| ==> KeyStats(table, FlipIndividualKey(r[i].key)) == Some(r[i].stats)
    ensures forall k :: FindIndividualMatch(input, k) && KeyStats(table, k).Some? ==>
              exists i :: 0 <= i < |r| && r[i].key == FlipIndividualKey(k)
    ensures forall i, j :: 0 <= i < j < |r| ==>
              r[i].key != r[j].key && LessOrEqual(FlipIndividualKey(r[i].key).value, FlipIndividualKey(r[j].key).value)
  {
    var r := MergedIndividuals(table, k => FindIndividualMatch(input, k));
    FindIndividualRows(input, r);
    r
  }

  lemma FindIndividualRows(input: string, r: seq<Merged<IndividualKey>>)
    requires forall i :: 0 <= i < |r| ==> FindIndividualMatch(input, FlipIndividualKey(r[i].key))
    requires forall i, j :: 0 <= i < j < |r| ==> r[i].key != r[j].key
    ensures forall i :: 0 <= i < |r| ==> r[i].key.value == input
    ensures |r| <= 2
  {
    forall i | 0 <= i < |r|
      ensures r[i].key == IndividualKey(A, input) || r[i].key == IndividualKey(Q, input)
    {
      FlipIndividualKeyInvolution(r[i].key);
      ReverseInvolution(input);
    }
    var keys := seq(|r|, i requires 0 <= i < |r| => r[i].key);
    Sorting.DistinctBounded(keys, {IndividualKey(A, input), IndividualKey(Q, input)});
  }

  /**
   `LikeIndividual`: the merged rows of answers that start with the input
   and of queries that end with it.
   */
  function LikeIndividual(table: seq<IndividualRecord>, input: string): (r: seq<Merged<IndividualKey>>)
    ensures forall i :: 0 <= i < |r| ==>
              (r[i].key.which == A && IsPrefix(input, r[i].key.value))
              || (r[i].key.which == Q && IsSuffix(input, r[i].key.value))
    ensures forall i :: 0 <= i < |r| ==> KeyStats(table, FlipIndividualKey(r[i].key)) == Some(r[i].stats)
    ensures forall k :: LikeIndividualMatch(input, k) && KeyStats(table, k).Some? ==>
              exists i :: 0 <= i < |r| && r[i].key == FlipIndividualKey(k)
    ensures forall i, j :: 0 <= i < j < |r| ==>
              r[i].key != r[j].key && LessOrEqual(FlipIndividualKey(r[i].key).value, FlipIndividualKey(r[j].key).value)
  {
    var pred := k => LikeIndividualMatch(input, k);
    var r := MergedIndividuals(table, pred);
    forall i | 0 <= i < |r|
      ensures (r[i].key.which == A && IsPrefix(input, r[i].key.value))
              || (r[i].key.which == Q && IsSuffix(input, r[i].key.value))
    {
      PrefixOfReversedIsSuffix(input, r[i].key.value);
    }
    r
  }

  /**
   The merged lookups see a table only through the merged state of each
   key: tables that agree on it answer every merged lookup alike, rows and
   order included.
   */
  lemma TupleLookupsDependOnlyOnKeyStats(t1: seq<TupleRecord>, t2: seq<TupleRecord>, input: string)
    requires forall k :: KeyStats(t1, k) == KeyStats(t2, k)
    ensures FindTuples(t1, input) == FindTuples(t2, input)
    ensures LikeTuples(t1, input) == LikeTuples(t2, input)
  {
    TupleKeyLessIsStrictTotal();
    MergedLookupDependsOnlyOnKeyStats(t1, t2, k => FindTuplesMatch(input, k), TupleKeyLess);
    MergedLookupDependsOnlyOnKeyStats(t1, t2, k => LikeTuplesMatch(input, k), TupleKeyLess);
  }

  lemma IndividualLookupsDependOnlyOnKeyStats(t1: seq<IndividualRecord>, t2: seq<IndividualRecord>, input: string)
    requires forall k :: KeyStats(t1, k) == KeyStats(t2, k)
    ensures FindIndividual(t1, input) == FindIndividual(t2, input)
    ensures LikeIndividual(t1, input) == LikeIndividual(t2, input)
  {
    IndividualKeyLessIsStrictTotal();
    MergedLookupDependsOnlyOnKeyStats(t1, t2, k => FindIndividualMatch(input, k), IndividualKeyLess);
    MergedLookupDependsOnlyOnKeyStats(t1, t2, k => LikeIndividualMatch(input, k), IndividualKeyLess);
  }
}

=== FILE: properties.dfy ===
/**
 Properties that relate several calls of the store: what the lookups
 report after a sequence of `Update`s, that the order of the batches does
 not matter to them, that `Update` never consults the ledger and so merges
 a batch again when asked to, and that `Clear` leaves nothing to find.
 */
module Properties {
  import opened Base
  import opened Strings
  import opened Aggregate
  import opened Schema
  import opened Statements
  import opened Ingest
  import opened Admin
  import opened Lookup

  /** The rows `f` picks out of each batch, batch after batch. */
  function Flatten<B, T>(bs: seq<B>, f: B -> seq<T>): seq<T>
  {
    if |bs| == 0 then [] else f(bs[0]) + Flatten(bs[1..], f)
  }

  function TuplesOf(b: Batch): seq<TupleRecord>
  {
    b.tuples
  }

  function IndividualOf(b: Batch): seq<IndividualRecord>
  {
    b.individual
  }

  lemma {:induction false} FlattenAppend<B, T>(a: seq<B>, b: seq<B>, f: B -> seq<T>)
    ensures Flatten(a + b, f) == Flatten(a, f) + Flatten(b, f)
  {
    if |a| == 0 {
      assert a + b == b;
    } else {
      assert (a + b)[1..] == a[1..] + b;
      FlattenAppend(a[1..], b, f);
    }
  }

  /** Reordering the batches reorders their rows, and no more. */
  lemma {:induction false} FlattenPermutation<B, T>(bs1: seq<B>, bs2: seq<B>, f: B -> seq<T>)
    requires multiset(bs1) == multiset(bs2)
    ensures multiset(Flatten(bs1, f)) == multiset(Flatten(bs2, f))
  {
    if |bs1| == 0 {
      assert |bs2| == |multiset(bs2)| == 0;
    } else {
      var x := bs1[0];
      assert x in multiset(bs2);
      var j :| 0 <= j < |bs2| && bs2[j] == x;
      var u := TakeOut(bs2, j, f);
      assert bs1 == [x] + bs1[1..];
      assert multiset(bs1[1..]) == multiset(bs1) - multiset{x};
      FlattenPermutation(bs1[1..], u, f);
    }
  }

  /** Takes batch `j` out of `bs`, and shows what it contributed to the rows. */
  lemma TakeOut<B, T>(bs: seq<B>, j: nat, f: B -> seq<T>) returns (u: seq<B>)
    requires j < |bs|
    ensures multiset(u) == multiset(bs) - multiset{bs[j]}
    ensures multiset(Flatten(bs, f)) == multiset(f(bs[j])) + multiset(Flatten(u, f))
  {
    var x, before, after := bs[j], bs[..j], bs[j + 1..];
    u := before + after;
    assert bs == before + [x] + after;
    assert multiset(bs) == multiset(before) + multiset{x} + multiset(after);
    FlattenAppend(before + [x], after, f);
    FlattenAppend(before, [x], f);
    FlattenAppend(before, after, f);
    assert Flatten([x], f) == f(x) + Flatten([], f);
  }

  /**
   The database after `Update` has run on each batch in turn, every call
   succeeding (no statement faults; the elapsed time is irrelevant here).
   */
  function IngestAll(db: Db, bs: seq<Batch>): Db
    decreases |bs|
  {
    if |bs| == 0 then db else IngestAll(Update(db, bs[0], {}, 0).db, bs[1..])
  }

  /** Without faults, `Update` always succeeds, even over the staging tables a previous call left. */
  lemma UpdateWithoutFaults(db: Db, batch: Batch, elapsed: nat)
    ensures Update(db, batch, {}, elapsed).err.None?
    ensures Update(db, batch, {}, elapsed).db == Loaded(db, batch)
  {
    assert Ready(db, {});
  }

  /**
   After a series of updates, the merged state of a key is the merged
   state it had before joined with that of every staged row of every
   batch; the ledger is untouched.
   */
  lemma {:induction false} IngestAllKeyStats(db: Db, bs: seq<Batch>)
    ensures IngestAll(db, bs).filenames == db.filenames
    ensures forall k :: KeyStats(IngestAll(db, bs).tuples, k)
                        == Join(KeyStats(db.tuples, k), KeyStats(Flatten(bs, TuplesOf), k))
    ensures forall k :: KeyStats(IngestAll(db, bs).individual, k)
                        == Join(KeyStats(db.individual, k), KeyStats(Flatten(bs, IndividualOf), k))
    decreases |bs|
  {
    if |bs| > 0 {
      var b := bs[0];
      UpdateWithoutFaults(db, b, 0);
      var d := Loaded(db, b);
      IngestAllKeyStats(d, bs[1..]);
      forall k: TupleKey
        ensures KeyStats(IngestAll(db, bs).tuples, k)
                == Join(KeyStats(db.tuples, k), KeyStats(Flatten(bs, TuplesOf), k))
      {
        KeyStatsAppend(db.tuples, Group(b.tuples), k);
        KeyStatsAppend(b.tuples, Flatten(bs[1..], TuplesOf), k);
        JoinAssociative(KeyStats(db.tuples, k), KeyStats(b.tuples, k), KeyStats(Flatten(bs[1..], TuplesOf), k));
      }
      forall k: IndividualKey
        ensures KeyStats(IngestAll(db, bs).individual, k)
                == Join(KeyStats(db.individual, k), KeyStats(Flatten(bs, IndividualOf), k))
      {
        KeyStatsAppend(db.individual, Group(b.individual), k);
        KeyStatsAppend(b.individual, Flatten(bs[1..], IndividualOf), k);
        JoinAssociative(KeyStats(db.individual, k), KeyStats(b.individual, k),
                        KeyStats(Flatten(bs[1..], IndividualOf), k));
      }
    }
  }

  /**
   Every row a merged tuple lookup returns after a series of updates
   reports, for its key, the earliest first-seen, the latest last-seen and
   the total count (modulo 2^64) over the fragments that were there before
   and all rows of all batches; and every matching key among them is
   reported.
   */
  lemma FindTuplesReportsTotals(db: Db, bs: seq<Batch>, input: string)
    ensures var all := db.tuples + Flatten(bs, TuplesOf);
            var r := FindTuples(IngestAll(db, bs).tuples, input);
      && (forall i :: 0 <= i < |r| ==> Summarizes(r[i].stats, all, FlipTupleKey(r[i].key)))
      && (forall k :: FindTuplesMatch(input, k) && KeyStats(all, k).Some? ==>
            exists i :: 0 <= i < |r| && r[i].key == FlipTupleKey(k))
  {
    var all := db.tuples + Flatten(bs, TuplesOf);
    var r := FindTuples(IngestAll(db, bs).tuples, input);
    IngestAllTuples(db, bs);
    TupleLookupsDependOnlyOnKeyStats(IngestAll(db, bs).tuples, all, input);
    forall i | 0 <= i < |r|
      ensures Summarizes(r[i].stats, all, FlipTupleKey(r[i].key))
    {
      KeyStatsSummarizes(all, FlipTupleKey(r[i].key));
    }
  }

  lemma IngestAllTuples(db: Db, bs: seq<Batch>)
    ensures forall k :: KeyStats(IngestAll(db, bs).tuples, k) == KeyStats(db.tuples + Flatten(bs, TuplesOf), k)
  {
    IngestAllKeyStats(db, bs);
    forall k
      ensures KeyStats(IngestAll(db, bs).tuples, k) == KeyStats(db.tuples + Flatten(bs, TuplesOf), k)
    {
      KeyStatsAppend(db.tuples, Flatten(bs, TuplesOf), k);
    }
  }

  /** The same for the merged lookup of individual values. */
  lemma FindIndividualReportsTotals(db: Db, bs: seq<Batch>, input: string)
    ensures var all := db.individual + Flatten(bs, IndividualOf);
            var r := FindIndividual(IngestAll(db, bs).individual, input);
      && (forall i :: 0 <= i < |r| ==> Summarizes(r[i].stats, all, FlipIndividualKey(r[i].key)))
      && (forall k :: FindIndividualMatch(input, k) && KeyStats(all, k).Some? ==>
            exists i :: 0 <= i < |r| && r[i].key == FlipIndividualKey(k))
  {
    var all := db.individual + Flatten(bs, IndividualOf);
    var r := FindIndividual(IngestAll(db, bs).individual, input);
    IngestAllIndividual(db, bs);
    IndividualLookupsDependOnlyOnKeyStats(IngestAll(db, bs).individual, all, input);
    forall i | 0 <= i < |r|
      ensures Summarizes(r[i].stats, all, FlipIndividualKey(r[i].key))
    {
      KeyStatsSummarizes(all, FlipIndividualKey(r[i].key));
    }
  }

  lemma IngestAllIndividual(db: Db, bs: seq<Batch>)
    ensures forall k :: KeyStats(IngestAll(db, bs).individual, k)
                        == KeyStats(db.individual + Flatten(bs, IndividualOf), k)
  {
    IngestAllKeyStats(db, bs);
    forall k
      ensures KeyStats(IngestAll(db, bs).individual, k) == KeyStats(db.individual + Flatten(bs, IndividualOf), k)
    {
      KeyStatsAppend(db.individual, Flatten(bs, IndividualOf), k);
    }
  }

  /**
   The order in which batches are loaded does not matter to the merged
   lookups: any reordering of the same batches answers each of them with
   the same rows in the same order.
   */
  lemma IngestOrderIndependent(db: Db, bs1: seq<Batch>, bs2: seq<Batch>, input: string)
    requires multiset(bs1) == multiset(bs2)
    ensures var d1, d2 := IngestAll(db, bs1), IngestAll(db, bs2);
      && FindTuples(d1.tuples, input) == FindTuples(d2.tuples, input)
      && LikeTuples(d1.tuples, input) == LikeTuples(d2.tuples, input)
      && FindIndividual(d1.individual, input) == FindIndividual(d2.individual, input)
      && LikeIndividual(d1.individual, input) == LikeIndividual(d2.individual, input)
  {
    var d1, d2 := IngestAll(db, bs1), IngestAll(db, bs2);
    IngestAllKeyStats(db, bs1);
    IngestAllKeyStats(db, bs2);
    FlattenPermutation(bs1, bs2, TuplesOf);
    FlattenPermutation(bs1, bs2, IndividualOf);
    forall k: TupleKey
      ensures KeyStats(d1.tuples, k) == KeyStats(d2.tuples, k)
    {
      KeyStatsPermutation(Flatten(bs1, TuplesOf), Flatten(bs2, TuplesOf), k);
    }
    forall k: IndividualKey
      ensures KeyStats(d1.individual, k) == KeyStats(d2.individual, k)
    {
      KeyStatsPermutation(Flatten(bs1, IndividualOf), Flatten(bs2, IndividualOf), k);
    }
    TupleLookupsDependOnlyOnKeyStats(d1.tuples, d2.tuples, input);
    IndividualLookupsDependOnlyOnKeyStats(d1.individual, d2.individual, input);
  }

  /**
   `Update` does not consult the ledger: whatever `filenames` holds, the
   call fails or succeeds alike and writes the same aggregate and staging
   tables.
   */
  lemma UpdateIgnoresLedger(db: Db, ledger: seq<string>, batch: Batch, faults: set<Stmt>, elapsed: nat)
    ensures var a := Update(db, batch, faults, elapsed);
            var b := Update(db.(filenames := ledger), batch, faults, elapsed);
      b.err == a.err && b.result == a.result && b.db == a.db.(filenames := ledger)
  {
    var staged := DropStaging(db, batch, faults);
    var d1 := Attempt(db, DropTuplesTemp, batch, faults);
    ExecIgnoresLedger(db, ledger, DropTuplesTemp, batch, faults);
    ExecIgnoresLedger(d1, ledger, DropIndividualTemp, batch, faults);
    assert DropStaging(db.(filenames := ledger), batch, faults) == staged.(filenames := ledger);
    RunIgnoresLedger(staged, ledger, Pipeline, batch, faults);
  }

  /**
   So the same batch loaded twice is merged twice: the table gains two
   fragments per key, and the merged state of each key of the batch joins
   the batch's own state twice over.
   */
  lemma UpdateTwiceMergesTwice(db: Db, batch: Batch, e1: nat, e2: nat, k: TupleKey)
    ensures var d2 := Update(Update(db, batch, {}, e1).db, batch, {}, e2).db;
      && |d2.tuples| == |db.tuples| + 2 * |Group(batch.tuples)|
      && KeyStats(d2.tuples, k)
         == Join(KeyStats(db.tuples, k), Join(KeyStats(batch.tuples, k), KeyStats(batch.tuples, k)))
  {
    var d1 := Update(db, batch, {}, e1).db;
    UpdateWithoutFaults(db, batch, e1);
    UpdateWithoutFaults(d1, batch, e2);
    var g := Group(batch.tuples);
    KeyStatsAppend(db.tuples + g, g, k);
    KeyStatsAppend(db.tuples, g, k);
    JoinAssociative(KeyStats(db.tuples, k), KeyStats(g, k), KeyStats(g, k));
  }

  /**
   For a key the table did not hold, loading a batch twice reports the same
   first and last seen as loading it once, and twice its count.
   */
  lemma UpdateTwiceDoublesCount(db: Db, batch: Batch, e1: nat, e2: nat, k: TupleKey)
    requires KeyStats(db.tuples, k).None?
    requires KeyStats(batch.tuples, k).Some?
    ensures var st := KeyStats(batch.tuples, k).value;
            var d2 := Update(Update(db, batch, {}, e1).db, batch, {}, e2).db;
      KeyStats(d2.tuples, k) == Some(Stats(st.first, st.last, (2 * st.count) % U64))
  {
    var st := KeyStats(batch.tuples, k).value;
    var d2 := Update(Update(db, batch, {}, e1).db, batch, {}, e2).db;
    UpdateTwiceMergesTwice(db, batch, e1, e2, k);
    JoinTwice(st);
  }

  lemma JoinTwice(st: Stats)
    ensures Join(None, Join(Some(st), Some(st))) == Some(Stats(st.first, st.last, (2 * st.count) % U64))
  {
  }

  /**
   A batch that stages the same tuple twice, seen once at time `t` each
   time, is reported by `FindTuples` as one row seen twice, first and last
   at `t`.
   */
  lemma RepeatedTupleCountsTwice(db: Db, rec: TupleRecord, t: DateTime, elapsed: nat, input: string)
    requires KeyStats(db.tuples, rec.key).None?
    requires rec.stats == Stats(t, t, 1)
    requires FindTuplesMatch(input, rec.key)
    ensures var d := Update(db, Batch([rec, rec], []), {}, elapsed).db;
            var r := FindTuples(d.tuples, input);
      exists i :: 0 <= i < |r| && r[i].key == FlipTupleKey(rec.key) && r[i].stats == Stats(t, t, 2)
  {
    var batch := Batch([rec, rec], []);
    UpdateWithoutFaults(db, batch, elapsed);
    var d := Update(db, batch, {}, elapsed).db;
    KeyStatsAppend(db.tuples, Group(batch.tuples), rec.key);
    SeenTwice(rec, t);
    assert KeyStats(d.tuples, rec.key) == Some(Stats(t, t, 2));
    var r := FindTuples(d.tuples, input);
    var i :| 0 <= i < |r| && r[i].key == FlipTupleKey(rec.key);
    FlipTupleKeyInvolution(rec.key);
  }

  lemma SeenTwice(rec: TupleRecord, t: DateTime)
    requires rec.stats == Stats(t, t, 1)
    ensures KeyStats([rec, rec], rec.key) == Some(Stats(t, t, 2))
  {
    assert [rec, rec][1..] == [rec];
    assert [rec][1..] == [];
  }

  /** Empty tables answer every lookup with no rows. */
  lemma NothingFoundInEmpty(input: string)
    ensures FindQueryTuples([], input) == []
    ensures FindTuples([], input) == [] && LikeTuples([], input) == []
    ensures FindIndividual([], input) == [] && LikeIndividual([], input) == []
  {
  }

  /** After a successful `Clear` no lookup finds anything, and no log counts as indexed. */
  lemma ClearEmptiesLookups(db: Db, faults: set<Stmt>, input: string, filename: string)
    requires Clear(db, faults).err.None?
    ensures var d := Clear(db, faults).db;
      && FindQueryTuples(d.tuples, input) == []
      && FindTuples(d.tuples, input) == []
      && LikeTuples(d.tuples, input) == []
      && FindIndividual(d.individual, input) == []
      && LikeIndividual(d.individual, input) == []
      && IsLogIndexed(d, filename, None) == (false, None)
  {
    var d := Clear(db, faults).db;
    NothingFoundInEmpty(input);
  }

  /**
   The like-lookup matches on characters, not on labels: a tuple whose
   query is `notexample.com` is returned for the input `example.com`.
   */
  lemma LikeTuplesIgnoresLabelBoundary(rec: TupleRecord)
    requires rec.key.query == Reverse("notexample.com")
    ensures var r := LikeTuples([rec], "example.com");
      exists i :: 0 <= i < |r| && r[i].key.query == "notexample.com"
  {
    var x, s := "example.com", "notexample.com";
    assert IsSuffix(x, s);
    PrefixOfReversedIsSuffix(x, s);
    assert LikeTuplesMatch(x, rec.key);
    assert KeyStats([rec], rec.key).Some?;
    var r := LikeTuples([rec], x);
    var i :| 0 <= i < |r| && r[i].key == FlipTupleKey(rec.key);
    ReverseInvolution(s);
  }
}

=== FILE: schema.dfy ===
/**
 The tables of the ClickHouse store and their keys.

 `tuples` is keyed by (query, type, answer) and `individual` by
 (which, value). Query names are stored with their characters reversed;
 answers, and individual values with `which = 'A'`, are stored in natural
 order. The database itself is a value: the two permanent aggregate
 tables as sequences of appended fragments, the `filenames` ledger, and
 the two staging tables, which may be absent.
 */
module Schema {
  import opened Base
  import opened Strings
  import opened Aggregate
  import Sorting

  /** The `which` column, `Enum8('Q'=0, 'A'=1)`: a value seen as a query or as an answer. */
  datatype Which = Q | A

  datatype TupleKey = TupleKey(query: string, rtype: string, answer: string)

  datatype IndividualKey = IndividualKey(which: Which, value: string)

  /** A row of `tuples_temp`, or an aggregate fragment of `tuples`. */
  type TupleRecord = Record<TupleKey, uint16>

  /** A row of `individual_temp`, or an aggregate fragment of `individual`. */
  type IndividualRecord = Record<IndividualKey, ()>

  datatype Db = Db(
    tuples: seq<TupleRecord>,
    individual: seq<IndividualRecord>,
    filenames: seq<string>,
    tuplesTemp: Option<seq<TupleRecord>>,
    individualTemp: Option<seq<IndividualRecord>>)

  /** `reverseQuery`: turns a stored tuple key into the key shown to callers, and back. */
  function FlipTupleKey(k: TupleKey): (r: TupleKey)
    ensures Reverse(r.query) == k.query
    ensures r.rtype == k.rtype && r.answer == k.answer
  {
    ReverseInvolution(k.query);
    k.(query := Reverse(k.query))
  }

  /**
   `reverseValue`: only values seen as queries are stored reversed, so only
   those are turned back.
   */
  function FlipIndividualKey(k: IndividualKey): (r: IndividualKey)
    ensures r.which == k.which
    ensures k.which == Q ==> Reverse(r.value) == k.value
    ensures k.which == A ==> r.value == k.value
  {
    ReverseInvolution(k.value);
    if k.which == Q then k.(value := Reverse(k.value)) else k
  }

  lemma FlipTupleKeyInvolution(k: TupleKey)
    ensures FlipTupleKey(FlipTupleKey(k)) == k
  {
    ReverseInvolution(k.query);
  }

  lemma FlipIndividualKeyInvolution(k: IndividualKey)
    ensures FlipIndividualKey(FlipIndividualKey(k)) == k
  {
    ReverseInvolution(k.value);
  }

  /** A strict total order refining `ORDER BY query, answer`; ties, which SQL leaves open, go by type. */
  predicate TupleKeyLess(a: TupleKey, b: TupleKey)
  {
    || Less(a.query, b.query)
    || (a.query == b.query && Less(a.answer, b.answer))
    || (a.query == b.query && a.answer == b.answer && Less(a.rtype, b.rtype))
  }

  /** A strict total order refining `ORDER BY value`; ties go by the enum order Q < A. */
  predicate IndividualKeyLess(a: IndividualKey, b: IndividualKey)
  {
    || Less(a.value, b.value)
    || (a.value == b.value && a.which == Q && b.which == A)
  }

  /** The order the SQL of the merged tuple lookups promises: by query, then answer. */
  predicate QueryAnswerOrdered(a: TupleKey, b: TupleKey)
  {
    Less(a.query, b.query) || (a.query == b.query && LessOrEqual(a.answer, b.answer))
  }

  lemma TupleKeyLessIsStrictTotal()
    ensures Sorting.StrictTotalOrder(TupleKeyLess)
  {
    forall x: TupleKey
      ensures !TupleKeyLess(x, x)
    {
      LessIrreflexive(x.query);
      LessIrreflexive(x.answer);
      LessIrreflexive(x.rtype);
    }
    forall x: TupleKey, y: TupleKey, z: TupleKey | TupleKeyLess(x, y) && TupleKeyLess(y, z)
      ensures TupleKeyLess(x, z)
    {
      if Less(x.query, y.query) && Less(y.query, z.query) {
        LessTransitive(x.query, y.query, z.query);
      }
      if Less(x.answer, y.answer) && Less(y.answer, z.answer) {
        LessTransitive(x.answer, y.answer, z.answer);
      }
      if Less(x.rtype, y.rtype) && Less(y.rtype, z.rtype) {
        LessTransitive(x.rtype, y.rtype, z.rtype);
      }
    }
    forall x: TupleKey, y: TupleKey
      ensures x == y || TupleKeyLess(x, y) || TupleKeyLess(y, x)
    {
      LessTrichotomy(x.query, y.query);
      LessTrichotomy(x.answer, y.answer);
      LessTrichotomy(x.rtype, y.rtype);
    }
  }

  lemma IndividualKeyLessIsStrictTotal()
    ensures Sorting.StrictTotalOrder(IndividualKeyLess)
  {
    forall x: IndividualKey
      ensures !IndividualKeyLess(x, x)
    {
      LessIrreflexive(x.value);
    }
    forall x: IndividualKey, y: IndividualKey, z: IndividualKey
      | IndividualKeyLess(x, y) && IndividualKeyLess(y, z)
      ensures IndividualKeyLess(x, z)
    {
      if Less(x.value, y.value) && Less(y.value, z.value) {
        LessTransitive(x.value, y.value, z.value);
      }
      if x.value == y.value && y.value == z.value {
        LessIrreflexive(x.value);
      }
    }
    forall x: IndividualKey, y: IndividualKey
      ensures x == y || IndividualKeyLess(x, y) || IndividualKeyLess(y, x)
    {
      LessTrichotomy(x.value, y.value);
    }
  }

  /** The strict key order separates keys and implies the order the SQL asks for. */
  lemma TupleKeyLessOrdersQueryAnswer(a: TupleKey, b: TupleKey)
    requires TupleKeyLess(a, b)
    ensures a != b && QueryAnswerOrdered(a, b)
  {
    LessIrreflexive(a.query);
    LessIrreflexive(a.answer);
    LessIrreflexive(a.rtype);
  }

  lemma IndividualKeyLessOrdersValue(a: IndividualKey, b: IndividualKey)
    requires IndividualKeyLess(a, b)
    ensures a != b && LessOrEqual(a.value, b.value)
  {
    LessIrreflexive(a.value);
  }
}

=== FILE: sorting.dfy ===
/**
 Insertion sort over an arbitrary strict order, and the fact that a
 strictly sorted sequence is determined by its elements. The store uses
 this for the `ORDER BY` of its merged lookups: once keys are sorted by a
 strict total order, the result no longer depends on the order in which
 the table's fragments were appended.
 */
module Sorting {

  ghost predicate StrictTotalOrder<T(!new)>(less: (T, T) -> bool)
  {
    && (forall x :: !less(x, x))
    && (forall x, y, z :: less(x, y) && less(y, z) ==> less(x, z))
    && (forall x, y :: x == y || less(x, y) || less(y, x))
  }

  ghost predicate StrictlySorted<T>(s: seq<T>, less: (T, T) -> bool)
  {
    forall i, j :: 0 <= i < j < |s| ==> less(s[i], s[j])
  }

  /** No element occurs twice. */
  ghost predicate Distinct<T>(s: seq<T>)
  {
    forall i, j :: 0 <= i < j < |s| ==> s[i] != s[j]
  }

  /** A sequence without repetitions drawn from `S` is no longer than `S` is large. */
  lemma {:induction false} DistinctBounded<T>(s: seq<T>, S: set<T>)
    requires Distinct(s)
    requires forall i :: 0 <= i < |s| ==> s[i] in S
    ensures |s| <= |S|
  {
    if |s| > 0 {
      var t := s[1..];
      forall i | 0 <= i < |t|
        ensures t[i] in S - {s[0]}
      {
        assert t[i] == s[i + 1];
      }
      DistinctBounded(t, S - {s[0]});
    }
  }

  /** Inserts `x` before the first element that is not less than it. */
  function Insert<T>(x: T, s: seq<T>, less: (T, T) -> bool): (r: seq<T>)
    ensures multiset(r) == multiset(s) + multiset{x}
  {
    if |s| == 0 then [x]
    else if less(s[0], x) then
      assert s == [s[0]] + s[1..];
      [s[0]] + Insert(x, s[1..], less)
    else [x] + s
  }

  function Sort<T>(s: seq<T>, less: (T, T) -> bool): (r: seq<T>)
    ensures multiset(r) == multiset(s)
  {
    if |s| == 0 then []
    else
      assert s == [s[0]] + s[1..];
      Insert(s[0], Sort(s[1..], less), less)
  }

  lemma SortSameElements<T>(s: seq<T>, less: (T, T) -> bool)
    ensures forall x :: x in Sort(s, less) <==> x in s
  {
    var r := Sort(s, less);
    forall x
      ensures x in r <==> x in s
    {
      assert x in r <==> x in multiset(r);
      assert x in s <==> x in multiset(s);
    }
  }

  lemma {:induction false} InsertSorted<T(!new)>(x: T, s: seq<T>, less: (T, T) -> bool)
    requires StrictTotalOrder(less)
    requires StrictlySorted(s, less)
    requires x !in s
    ensures StrictlySorted(Insert(x, s, less), less)
  {
    if |s| > 0 && less(s[0], x) {
      InsertSorted(x, s[1..], less);
      var t := Insert(x, s[1..], less);
      forall j | 0 <= j < |t|
        ensures less(s[0], t[j])
      {
        assert t[j] in multiset(t);
        if t[j] != x {
          assert t[j] in multiset(s[1..]);
          var k :| 0 <= k < |s[1..]| && s[1..][k] == t[j];
          assert s[k + 1] == t[j];
        }
      }
    } else if |s| > 0 {
      assert x != s[0];
      forall j | 0 <= j < |s|
        ensures less(x, s[j])
      {
        if j > 0 {
          assert less(s[0], s[j]);
        }
      }
    }
  }

  /** Sorting a sequence without repetitions yields a strictly sorted sequence. */
  lemma {:induction false} SortSorted<T(!new)>(s: seq<T>, less: (T, T) -> bool)
    requires StrictTotalOrder(less)
    requires Distinct(s)
    ensures StrictlySorted(Sort(s, less), less)
  {
    if |s| > 0 {
      SortSorted(s[1..], less);
      var t := Sort(s[1..], less);
      assert s[0] !in s[1..] by {
        forall k | 0 <= k < |s[1..]|
          ensures s[1..][k] != s[0]
        {
          assert s[k + 1] != s[0];
        }
      }
      assert s[0] !in multiset(t);
      InsertSorted(s[0], t, less);
    }
  }

  /**
   Two strictly sorted sequences holding the same elements are equal: the
   order fixes the sequence, whatever order the elements arrived in.
   */
  lemma {:induction false} StrictlySortedUnique<T(!new)>(a: seq<T>, b: seq<T>, less: (T, T) -> bool)
    requires StrictTotalOrder(less)
    requires StrictlySorted(a, less) && StrictlySorted(b, less)
    requires forall x :: x in a <==> x in b
    ensures a == b
  {
    if |a| > 0 {
      assert a[0] in a;
    }
    if |b| > 0 {
      assert b[0] in b;
    }
    if |a| > 0 && |b| > 0 {
      assert a[0] == b[0];
      forall x
        ensures x in a[1..] <==> x in b[1..]
      {
        if x in a[1..] {
          var i :| 0 <= i < |a[1..]| && a[1..][i] == x;
          assert less(a[0], a[i + 1]);
          assert x in b;
          var j :| 0 <= j < |b| && b[j] == x;
          assert j != 0;
          assert b[1..][j - 1] == x;
        }
        if x in b[1..] {
          var i :| 0 <= i < |b[1..]| && b[1..][i] == x;
          assert less(b[0], b[i + 1]);
          assert x in a;
          var j :| 0 <= j < |a| && a[j] == x;
          assert j != 0;
          assert a[1..][j - 1] == x;
        }
      }
      StrictlySortedUnique(a[1..], b[1..], less);
      assert a == [a[0]] + a[1..] && b == [b[0]] + b[1..];
    }
  }
}

=== FILE: statements.dfy ===
/**
 The SQL statements the store sends through `Exec` and `SendJSON`, each
 as a transition of the database value, and the "run in order, stop at the
 first error" loop that both `Update` and `Clear` follow.

 Whether the server or the transport fails a statement is not visible in
 the code; it is a parameter here, the set `faults` of statements that
 fail whatever the state. The model also has the server reject a statement
 in two cases that follow from the statements themselves: dropping,
 loading or reading a staging table that does not exist, and creating one
 that already does (the staging DDL has no `IF NOT EXISTS`). The model
 assumes that a statement reported as failed changed nothing.
 */
module Statements {
  import opened Base
  import opened Aggregate
  import opened Schema

  datatype Stmt =
    | DropTuplesTemp         // DROP TABLE tuples_temp
    | DropIndividualTemp     // DROP TABLE individual_temp
    | CreateTuplesTemp       // CREATE TABLE tuples_temp ... ENGINE = Log
    | CreateIndividualTemp   // CREATE TABLE individual_temp ... ENGINE = Log
    | LoadTuples             // SendJSON("tuples_temp", ...)
    | MergeTuples            // INSERT INTO tuples ... SELECT ... FROM tuples_temp GROUP BY query, type, answer
    | LoadIndividual         // SendJSON("individual_temp", ...)
    | MergeIndividual        // INSERT INTO individual ... SELECT ... FROM individual_temp GROUP BY which, value
    | DeleteFilenames        // DELETE FROM filenames
    | DeleteIndividual       // DELETE FROM individual
    | DeleteTuples           // DELETE FROM tuples

  /**
   The rows one `Update` call stages: what the aggregation result's JSON
   readers produce, already in stored form (query names reversed).
   */
  datatype Batch = Batch(tuples: seq<TupleRecord>, individual: seq<IndividualRecord>)

  datatype Table = Tuples | Individual | Filenames | TuplesTemp | IndividualTemp

  /** The one table a statement writes. */
  function Target(s: Stmt): Table
  {
    match s
    case DropTuplesTemp | CreateTuplesTemp | LoadTuples => TuplesTemp
    case DropIndividualTemp | CreateIndividualTemp | LoadIndividual => IndividualTemp
    case MergeTuples | DeleteTuples => Tuples
    case MergeIndividual | DeleteIndividual => Individual
    case DeleteFilenames => Filenames
  }

  /** `a` and `b` hold the same contents in table `t`. */
  predicate SameTable(a: Db, b: Db, t: Table)
  {
    match t
    case Tuples => a.tuples == b.tuples
    case Individual => a.individual == b.individual
    case Filenames => a.filenames == b.filenames
    case TuplesTemp => a.tuplesTemp == b.tuplesTemp
    case IndividualTemp => a.individualTemp == b.individualTemp
  }

  /** The server would accept `s` in state `db` (the transport aside). */
  predicate Accepts(db: Db, s: Stmt)
  {
    match s
    case DropTuplesTemp | LoadTuples | MergeTuples => db.tuplesTemp.Some?
    case DropIndividualTemp | LoadIndividual | MergeIndividual => db.individualTemp.Some?
    case CreateTuplesTemp => db.tuplesTemp.None?
    case CreateIndividualTemp => db.individualTemp.None?
    case DeleteFilenames | DeleteIndividual | DeleteTuples => true
  }

  /**
   What a statement the server accepts does. A merge appends one
   aggregate-state fragment per key of the staging table, as its `GROUP BY`
   does; a load appends the batch's rows to the staging table.
   */
  function Effect(db: Db, s: Stmt, batch: Batch): (r: Db)
    requires Accepts(db, s)
    ensures forall t :: t != Target(s) ==> SameTable(db, r, t)
  {
    match s
    case DropTuplesTemp => db.(tuplesTemp := None)
    case DropIndividualTemp => db.(individualTemp := None)
    case CreateTuplesTemp => db.(tuplesTemp := Some([]))
    case CreateIndividualTemp => db.(individualTemp := Some([]))
    case LoadTuples => db.(tuplesTemp := Some(db.tuplesTemp.value + batch.tuples))
    case LoadIndividual => db.(individualTemp := Some(db.individualTemp.value + batch.individual))
    case MergeTuples => db.(tuples := db.tuples + Group(db.tuplesTemp.value))
    case MergeIndividual => db.(individual := db.individual + Group(db.individualTemp.value))
    case DeleteFilenames => db.(filenames := [])
    case DeleteIndividual => db.(individual := [])
    case DeleteTuples => db.(tuples := [])
  }

  /**
   One statement: the new state, or None when it fails. A failure leaves no
   state behind, which models the assumption that a failed statement
   changed nothing.
   */
  function Exec(db: Db, s: Stmt, batch: Batch, faults: set<Stmt>): (r: Option<Db>)
    ensures r.None? <==> s in faults || !Accepts(db, s)
    ensures r.Some? ==> forall t :: t != Target(s) ==> SameTable(db, r.value, t)
  {
    if s in faults || !Accepts(db, s) then None else Some(Effect(db, s, batch))
  }

  /** `Exec` whose failure is ignored, as for the leading drops of `Update`. */
  function Attempt(db: Db, s: Stmt, batch: Batch, faults: set<Stmt>): (r: Db)
    ensures forall t :: t != Target(s) ==> SameTable(db, r, t)
    ensures s in faults || !Accepts(db, s) ==> r == db
  {
    match Exec(db, s, batch, faults)
    case Some(d) => d
    case None => db
  }

  /** The state reached and the index of the statement that failed, if one did. */
  datatype RunResult = RunResult(db: Db, failed: Option<nat>)

  /** Executes `steps` in order and stops at the first that fails. */
  function Run(db: Db, steps: seq<Stmt>, batch: Batch, faults: set<Stmt>): (r: RunResult)
    ensures r.failed.Some? ==> r.failed.value < |steps| && Exec(r.db, steps[r.failed.value], batch, faults).None?
    ensures forall t :: (forall i :: 0 <= i < |steps| ==> Target(steps[i]) != t) ==> SameTable(db, r.db, t)
    decreases |steps|
  {
    if |steps| == 0 then RunResult(db, None)
    else
      match Exec(db, steps[0], batch, faults)
      case None => RunResult(db, Some(0))
      case Some(d) =>
        var rest := Run(d, steps[1..], batch, faults);
        RunFrameStep(db, d, rest.db, steps);
        RunResult(rest.db, if rest.failed.Some? then Some(rest.failed.value + 1) else None)
  }

  lemma RunFrameStep(db: Db, d: Db, e: Db, steps: seq<Stmt>)
    requires |steps| > 0
    requires forall t :: t != Target(steps[0]) ==> SameTable(db, d, t)
    requires forall t :: (forall i :: 0 <= i < |steps| - 1 ==> Target(steps[1..][i]) != t) ==> SameTable(d, e, t)
    ensures forall t :: (forall i :: 0 <= i < |steps| ==> Target(steps[i]) != t) ==> SameTable(db, e, t)
  {
    forall t | forall i :: 0 <= i < |steps| ==> Target(steps[i]) != t
      ensures SameTable(db, e, t)
    {
      assert Target(steps[0]) != t;
      forall i | 0 <= i < |steps| - 1
        ensures Target(steps[1..][i]) != t
      {
        assert steps[1..][i] == steps[i + 1];
      }
      assert SameTable(db, d, t) && SameTable(d, e, t);
    }
  }

  /**
   A run that fails at step `i` leaves exactly the state the steps before
   `i` produce, and those steps all succeed: nothing after the failure runs.
   */
  lemma {:induction false} RunStopsAtFailure(db: Db, steps: seq<Stmt>, batch: Batch, faults: set<Stmt>)
    ensures var r := Run(db, steps, batch, faults);
      r.failed.Some? ==> Run(db, steps[..r.failed.value], batch, faults) == RunResult(r.db, None)
    decreases |steps|
  {
    var r := Run(db, steps, batch, faults);
    if |steps| > 0 && r.failed.Some? && r.failed.value > 0 {
      var d := Exec(db, steps[0], batch, faults).value;
      var i := r.failed.value;
      RunStopsAtFailure(d, steps[1..], batch, faults);
      assert steps[..i][0] == steps[0];
      assert steps[..i][1..] == steps[1..][..i - 1];
    }
  }

  /**
   No statement but `DELETE FROM filenames` reads or writes the ledger: run
   against any other ledger, the same statements fail at the same step and
   leave the same tables.
   */
  lemma {:induction false} RunIgnoresLedger(db: Db, ledger: seq<string>, steps: seq<Stmt>, batch: Batch, faults: set<Stmt>)
    requires forall i :: 0 <= i < |steps| ==> steps[i] != DeleteFilenames
    ensures var r := Run(db, steps, batch, faults);
      Run(db.(filenames := ledger), steps, batch, faults) == RunResult(r.db.(filenames := ledger), r.failed)
    decreases |steps|
  {
    if |steps| > 0 {
      ExecIgnoresLedger(db, ledger, steps[0], batch, faults);
      match Exec(db, steps[0], batch, faults)
      case None =>
      case Some(d) =>
        assert forall i :: 0 <= i < |steps[1..]| ==> steps[1..][i] == steps[i + 1];
        RunIgnoresLedger(d, ledger, steps[1..], batch, faults);
    }
  }

  lemma ExecIgnoresLedger(db: Db, ledger: seq<string>, s: Stmt, batch: Batch, faults: set<Stmt>)
    requires s != DeleteFilenames
    ensures Exec(db.(filenames := ledger), s, batch, faults)
            == match Exec(db, s, batch, faults)
               case None => None
               case Some(d) => Some(d.(filenames := ledger))
  {
  }
}

=== FILE: strings.dfy ===
/**
 String helpers the store relies on: character-order reversal of domain
 names (the "reversed key" that turns suffix searches into prefix
 searches), the prefix test that models a `LIKE 'x%'` pattern, and the
 byte-wise lexicographic order ClickHouse uses for `ORDER BY` on a String
 column.
 */
module Strings {

  /** Reverses the character order of a string. */
  function Reverse(s: string): (r: string)
    ensures |r| == |s|
    ensures forall i :: 0 <= i < |s| ==> r[i] == s[|s| - 1 - i]
  {
    if |s| == 0 then [] else Reverse(s[1..]) + [s[0]]
  }

  /** Reversal is its own inverse, including on the empty string. */
  lemma ReverseInvolution(s: string)
    ensures Reverse(Reverse(s)) == s
  {
    var r := Reverse(Reverse(s));
    assert |r| == |s|;
    forall i | 0 <= i < |s|
      ensures r[i] == s[i]
    {
      assert r[i] == Reverse(s)[|s| - 1 - i];
    }
  }

  /** Reversal is injective, so comparing reversed forms compares originals. */
  lemma ReverseInjective(a: string, b: string)
    ensures Reverse(a) == Reverse(b) <==> a == b
  {
    if Reverse(a) == Reverse(b) {
      ReverseInvolution(a);
      ReverseInvolution(b);
    }
  }

  /** `p` is a prefix of `s`: the meaning of `s LIKE p || '%'` when `p` holds none of the `LIKE` metacharacters `%`, `_` and `\`. */
  predicate IsPrefix(p: string, s: string)
  {
    |p| <= |s| && s[..|p|] == p
  }

  /** `x` is a suffix of `s`. */
  predicate IsSuffix(x: string, s: string)
  {
    |x| <= |s| && s[|s| - |x|..] == x
  }

  /**
   The reversed-key trick: a reversed search term is a prefix of a reversed
   name exactly when the term is a suffix of the name.
   */
  lemma PrefixOfReversedIsSuffix(x: string, s: string)
    ensures IsPrefix(Reverse(x), Reverse(s)) <==> IsSuffix(x, s)
  {
    var rx, rs := Reverse(x), Reverse(s);
    if IsPrefix(rx, rs) {
      forall i | 0 <= i < |x|
        ensures s[|s| - |x| + i] == x[i]
      {
        assert rs[|x| - 1 - i] == rx[|x| - 1 - i];
      }
      assert s[|s| - |x|..] == x;
    }
    if IsSuffix(x, s) {
      forall i | 0 <= i < |x|
        ensures rs[i] == rx[i]
      {
        assert s[|s| - |x|..][|x| - 1 - i] == x[|x| - 1 - i];
      }
      assert rs[..|rx|] == rx;
    }
  }

  /** Strict lexicographic order on strings, comparing characters by code point. */
  predicate Less(a: string, b: string)
  {
    if |a| == 0 then |b| > 0
    else if |b| == 0 then false
    else a[0] < b[0] || (a[0] == b[0] && Less(a[1..], b[1..]))
  }

  /** `a` sorts no later than `b`. */
  predicate LessOrEqual(a: string, b: string)
  {
    a == b || Less(a, b)
  }

  lemma {:induction false} LessIrreflexive(a: string)
    ensures !Less(a, a)
  {
    if |a| > 0 {
      LessIrreflexive(a[1..]);
    }
  }

  lemma {:induction false} LessTransitive(a: string, b: string, c: string)
    requires Less(a, b) && Less(b, c)
    ensures Less(a, c)
  {
    if |a| > 0 && a[0] == b[0] && b[0] == c[0] {
      LessTransitive(a[1..], b[1..], c[1..]);
    }
  }

  lemma {:induction false} LessTrichotomy(a: string, b: string)
    ensures a == b || Less(a, b) || Less(b, a)
  {
    if |a| > 0 && |b| > 0 && a[0] == b[0] {
      LessTrichotomy(a[1..], b[1..]);
      if a[1..] == b[1..] {
        assert a == [a[0]] + a[1..] && b == [b[0]] + b[1..];
      }
    }
  }

  lemma LessAsymmetric(a: string, b: string)
    ensures !(Less(a, b) && Less(b, a))
  {
    if Less(a, b) && Less(b, a) {
      LessTransitive(a, b, a);
      LessIrreflexive(a);
    }
  }

  lemma LessOrEqualTransitive(a: string, b: string, c: string)
    requires LessOrEqual(a, b) && LessOrEqual(b, c)
    ensures LessOrEqual(a, c)
  {
    if a != b && b != c {
      LessTransitive(a, b, c);
    }
  }
}
